=== FILE: README.md ===
# Fastguy comparison metrics, modelled in Dafny

Fastguy is a browser dashboard that compares two Formula 1 drivers in one session
using the public OpenF1 data. Once the lap and stint records are fetched, each analysis
is a pure reshaping of those records into chart series and table rows. This project
models that reshaping:

- **Fastest lap** (`FastestLap`): an optional qualifying-segment filter, then the
  fastest valid lap per driver. The module builds the four-value chart tuple and the
  per-row deltas.
- **Tyre strategy** (`TyreStrategy`): a lap-by-lap timeline of the stint each driver
  was on, and a table pairing the two drivers' stints by position.
- **Lap times** (`LapTimes`): the valid laps sorted by lap number and laid out in one
  slot per lap number. Personal bests are highlighted and each row carries a delta.
- **Sectors** (`Sectors`): best and average sector times, the theoretical best lap,
  and the deltas between the drivers.
- **Speed traps** (`SpeedTraps`): the maximum and average speed at the two
  intermediates and the speed trap.
- **Mini-sectors** (`Minisectors`): the status codes of each driver's fastest lap,
  laid out for the chart, and the per-sector comparison table.

Every lap-based analysis (all but tyre strategy, which reads only stints) first keeps
the driver's *valid* laps (`Records.IsValid`). A valid lap is never a pit-out lap, and
what else it must carry depends on the view:

- lap times and mini-sectors: a lap time;
- fastest lap: a lap time and all three sector times;
- sectors: all three sector times (a lap time is not needed);
- speed traps: all three speeds.

"valid" in the table below always means valid for the view of that row.

Shared pieces live in `Records` (the lap and stint records and the validity filters),
`Reducers` (minimum, maximum, mean, and the two delta rules), `Stints` (matching a lap
number to a stint) and `Wrappers` (`Option`).

JavaScript values are modelled as follows:
- A `null` field, an empty `Math.min`/`Math.max` (±Infinity) and an average over no
  laps (NaN) are all `None`.
- The table deltas of the fastest-lap and lap-times views require both values to be
  truthy, so a zero time counts as missing. `Reducers.Delta` reproduces that.
- The sector and speed-trap deltas subtract unguarded. `Reducers.Difference`
  reproduces that.
- Stint matching is `Array.prototype.find`: the first stint in list order wins.
- The reduce that picks a fastest lap replaces the running best only on a strictly
  quicker lap, so the earliest of equally fast laps wins.

Two behaviours of the code are reproduced exactly rather than corrected:
- Driver 2's "best sector 1" is the minimum of the sector 2 times
  (`docs/script.js:884`). `Sectors.Driver2BestSector1IsSector2` states it, and
  `Sectors.TheoreticalBestExample` shows its effect on the theoretical best.
- Driver 2's mini-sector chart series repeats sector 2 in place of sector 1
  (`docs/script.js:1346`). `Minisectors.Driver2ChartRepeatsSector2` states it.

Also kept: the qualifying-segment filter treats stint numbers 1, 2 and 3 as the
segments Q1, Q2 and Q3.

## Model

| member | source | states |
|---|---|---|
| Records.ValidLaps | docs/script.js:862-874 | The validity filter keeps only laps that pass the analysis's test, in their original order. If every lap passes it returns the input unchanged; if none passes it returns nothing. |
| Records.ValidLapsMembers | docs/script.js:667-673 | A lap survives the filter exactly when it is one of the input laps and passes the test: not a pit-out lap, and with a lap time. |
| Records.NoValidLaps | docs/script.js:1102-1114 | An empty filter result means no input lap passed the test. |
| Records.FilterMembers | docs/script.js:1102-1114 | `Array.prototype.filter` keeps an element exactly when it is in the input and satisfies the predicate. |
| Reducers.MinOf | docs/script.js:676-677 | `Math.min` over the values: absent exactly for no values; otherwise one of the values and no larger than any of them. |
| Reducers.MaxOf | docs/script.js:1117-1127 | `Math.max` over the values: absent exactly for no values; otherwise one of the values and no smaller than any of them. |
| Reducers.Mean | docs/script.js:894-904 | The average (sum divided by count) is absent exactly when there are no values; otherwise, times the count, it gives back the sum. |
| Reducers.MeanBetweenMinAndMax | docs/script.js:894-904 | An average of one or more values lies between their minimum and their maximum. |
| Reducers.SumBounds | docs/script.js:895 | A sum of n values, each between lo and hi, lies between n·lo and n·hi. |
| Reducers.Delta | docs/script.js:417 | The guarded delta is present exactly when both times are truthy (present and non-zero); then delta plus driver 2's time equals driver 1's time. |
| Reducers.DeltaAntisymmetric | docs/script.js:817 | Swapping the drivers keeps whether a delta is shown and negates its value. |
| Reducers.Difference | docs/script.js:1049 | The unguarded difference is present exactly when both values are; then difference plus driver 2's value equals driver 1's value. |
| Stints.FindStint | js/visualization/fastestLap.js:44 | Finding a lap's stint gives none exactly when no stint's inclusive range holds the lap. Otherwise it gives a stint whose range holds the lap, with no earlier stint in the list holding it. |
| Stints.FindStintUnique | docs/script.js:244 | When no two stints' ranges overlap, whatever order they are listed in, the stint found is the one whose range holds the lap. |
| FastestLap.Fastest | js/visualization/fastestLap.js:55-65 | The filter-and-reduce gives no lap exactly when no lap is valid. Otherwise it gives a valid input lap that is no slower than any valid lap. |
| FastestLap.FastestOfValidLaps | docs/script.js:255-265 | Reducing over the input while skipping invalid laps gives the same lap as filtering first and then reducing. |
| FastestLap.FastestIsFirstMinimal | docs/script.js:257-259 | The lap chosen is strictly quicker than every valid lap before it. The strict `<` in the reduce makes the earliest of equally fast laps win. |
| FastestLap.ContainsIff | docs/script.js:237 | `String.prototype.includes` holds exactly when the text occurs at some position. |
| FastestLap.SegmentNumber | js/visualization/fastestLap.js:39-40 | The segment map sends "Q1" to stint 1, "Q2" to stint 2 and "Q3" to stint 3, and gives no number for any other segment name. |
| FastestLap.SegmentLaps | js/visualization/fastestLap.js:33-52 | Without a qualifying session and a chosen segment, the laps pass through unchanged. With them, the laps kept are an in-order selection whose first covering stint has the segment's number. |
| FastestLap.SegmentMembership | js/visualization/fastestLap.js:43-46 | In a segment-filtered qualifying session, an input lap is kept exactly when the first stint holding its lap number has the segment's number. |
| FastestLap.UnknownSegmentSelectsNothing | docs/script.js:239-240 | A segment other than Q1, Q2 or Q3 maps to undefined, so no lap is kept: both fastest laps and every delta are absent. |
| FastestLap.StintsIgnoredWithoutSegment | js/visualization/fastestLap.js:12-22 | When the segment filter does not apply, the stint lists have no effect on the result. |
| FastestLap.QualifyingMatchIsCaseInsensitive | js/visualization/fastestLap.js:10-14 | For any two session names that lower-case alike and any segment, the segment restriction applies to both or to neither. |
| FastestLap.ChartData | js/visualization/fastestLap.js:84-96 | The chart tuple has four entries: sector 1, sector 2, sector 3 and the lap time of the fastest lap. With no fastest lap all four are null. |
| FastestLap.CompareFastestLaps | js/visualization/fastestLap.js:54-217 | Each driver's lap is the fastest valid lap among the segment-eligible laps, found by the reduce, so the earliest of equally fast laps wins. The driver's four bars are that lap's chart data. Each of the four rows shows a delta exactly when both drivers' values are truthy, and the delta is driver 1's value minus driver 2's. |
| FastestLap.FastestTupleShape | docs/script.js:284-296 | A driver's tuple is all present exactly when that driver has a fastest lap, and all null otherwise. A missing lap for either driver blanks every delta. |
| FastestLap.FastestLapChosen | docs/script.js:237-265 | For both drivers, the lap is absent exactly when no segment-eligible lap is valid. Otherwise it is one of the driver's own laps that is valid and in the segment, and no slower than any valid eligible lap. |
| FastestLap.SegmentFastestChosen | docs/script.js:237-265 | For one driver, the fastest valid lap among the segment-eligible laps has the properties listed for FastestLapChosen. |
| TyreStrategy.MaxLapEnd | js/visualization/tyreStrategy.js:30-33 | The timeline length from one driver's stints is at least every stint's end lap. It is either 0 or one of those end laps, so an empty or all-negative list gives 0. |
| TyreStrategy.TimelineLength | docs/script.js:458-461 | The timeline is as long as the largest end lap over both drivers' stints, and 0 when there are none. |
| TyreStrategy.Timeline | js/visualization/tyreStrategy.js:53-60 | There is one bar per lap. The bar for lap i+1 is marked exactly when some stint's range holds that lap, and a marked bar carries the driver's mark with a compound and a tyre age. |
| TyreStrategy.TimelineShowsFirstCoveringStint | js/visualization/tyreStrategy.js:122-128 | A marked lap shows the compound and starting tyre age of the first stint in the list that holds the lap. |
| TyreStrategy.EveryStintLapIsShown | docs/script.js:481-510 | Every lap from 1 upward inside any stint lies on the timeline and is marked: 1 for driver 1, -1 for driver 2. |
| TyreStrategy.UncoveredLapIsGap | js/visualization/tyreStrategy.js:51-78 | For either driver's timeline, a lap that none of that driver's stints holds is an empty bar with no compound. |
| TyreStrategy.StintTable | js/visualization/tyreStrategy.js:184-204 | There is one row per driver-1 stint, paired with driver 2's stint at the same position or with N/A. The row reads "Same compound" exactly when both compounds are equal, and N/A exactly when driver 2 has no stint there. |
| TyreStrategy.StintTableSymmetric | docs/script.js:628-632 | For stint lists of equal length, swapping the drivers leaves the difference column unchanged. |
| TyreStrategy.CompareTyreStrategy | docs/script.js:458-463 | The timeline length is the largest end lap of either driver's stints, or 0 without stints. Both timelines have that length, with driver 1 marked 1 and driver 2 marked -1. The table pairs driver 1's stints with driver 2's. |
| LapTimes.SortByLapNumber | docs/script.js:667-673 | Sorting by lap number gives a list of the same length in non-decreasing lap-number order. |
| LapTimes.SortPermutes | docs/script.js:669 | The sorted list is a permutation of its input: no lap is lost or added. |
| LapTimes.SortStable | docs/script.js:669 | The sort is stable: laps sharing a lap number keep their relative input order. |
| LapTimes.LastOfSortedIsMax | docs/script.js:680-683 | The last lap of the sorted list has the largest lap number, or the list is empty and the number is 0. |
| LapTimes.SeriesLengthIsMaxLapNumber | docs/script.js:680-685 | The number of rows is the largest valid lap number of either driver. |
| LapTimes.PlaceSlot | docs/script.js:688-697 | Writing each lap's time into slot lap_number − 1 leaves slot i holding the time of the last lap numbered i+1, or null when there is none. |
| LapTimes.SeriesSlot | docs/script.js:688-693 | A driver's slot i holds the time of the last valid lap numbered i+1 (the sort is stable, so this is also the last such lap in input order), or null. |
| LapTimes.ValidLapHasSlot | docs/script.js:680-697 | Every valid lap numbered 1 or more falls within the rows and fills its slot, whether its driver is shown as driver 1 or as driver 2; the row count does not depend on the drivers' order. |
| LapTimes.PersonalBest | docs/script.js:676-677 | The personal best is absent exactly when the driver has no valid lap. Otherwise it is the time of one of the driver's valid laps, and no valid lap is quicker. |
| LapTimes.MinDurationIsBest | docs/script.js:676-677 | The minimum of the valid laps' times is one valid lap's time and no valid lap is quicker; it is missing exactly when no lap is valid. |
| LapTimes.Highlight | docs/script.js:820-821 | A row is highlighted exactly when its time is present and equal to the personal best. |
| LapTimes.HighlightIsPersonalBest | docs/script.js:820-821 | In both drivers' columns, a slot is highlighted exactly when it holds a time and no valid lap of that driver is quicker than that time. |
| LapTimes.SlotHighlight | docs/script.js:820-821 | For one driver, the highlight of slot i is set exactly when the slot holds a time that no valid lap of the driver beats. |
| LapTimes.SlotIsValidLapTime | docs/script.js:690-697 | Every filled slot of a series holds the time of one of the driver's valid laps. |
| LapTimes.CompareLapTimes | docs/script.js:667-821 | The view holds both drivers' gap-filled series over the same number of rows, the larger of the two drivers' last sorted valid lap numbers. It also holds both personal bests and the highlight columns they give. Each row's delta follows the truthiness-guarded rule. |
| Sectors.Stats | docs/script.js:876-904 | The bests, averages and theoretical best are present exactly when the driver has a lap that is not a pit-out lap and has all three sector times. The theoretical best is the sum of the three bests. Each average is the mean of that sector's times over those laps. |
| Sectors.BestIsMinimal | docs/script.js:877-881 | A best sector time is a time some valid lap recorded in that sector, and no valid lap was quicker there. |
| Sectors.StatsBestsAreBestTimes | docs/script.js:877-887 | Each reported best is attained by a valid lap in the sector it is taken from, and no valid lap is quicker there. Best 1 is taken from the sector the caller names. |
| Sectors.AveragesAreSumOverCount | docs/script.js:893-904 | Each sector average is the valid laps' total time in that sector divided by their number. There is no average when no lap is valid. |
| Sectors.TheoreticalBestBeatsEveryLap | docs/script.js:889-890 | Driver 1's theoretical best is no slower than the sum of any valid lap's three sectors. |
| Sectors.Driver2BestSector1IsSector2 | docs/script.js:883-887 | Driver 2's reported best sector 1 equals its best sector 2: both are the minimum of the sector 2 times. |
| Sectors.AverageNotBelowBest | docs/script.js:877-898 | Each of driver 1's sector averages is no quicker than that sector's best. |
| Sectors.TheoreticalBestExample | docs/script.js:884-891 | Bests (30.0, 35.0, 40.0) against (30.5, 34.5, 40.2) give theoretical bests 105.0 and 109.2, not 105.2. The theoretical delta is -4.2 and the sector 1 delta is -4.5. |
| Sectors.CompareSectors | docs/script.js:876-1062 | Driver 1's statistics take best 1 from sector 1 and driver 2's take it from sector 2. A sector delta is present exactly when both bests are, and equals driver 1's best minus driver 2's; the theoretical delta follows the same rule. |
| SpeedTraps.PointOf | docs/script.js:1116-1140 | The maximum at a point is present exactly when some lap is not a pit-out lap and has all three speeds. It is the largest of the valid laps' speeds there, and the average is their mean, never above the maximum. |
| SpeedTraps.AverageIsSumOverCount | docs/script.js:1128-1140 | The average speed at a point is the valid laps' total speed there divided by their number. There is no average when no lap is valid. |
| SpeedTraps.MaxIsAttainedAndMaximal | docs/script.js:1117-1121 | The maximum is a speed some valid lap recorded at that point, and no valid lap recorded a higher one. |
| SpeedTraps.CompareSpeedTraps | docs/script.js:1280-1285 | There are three rows, holding the statistics at intermediate 1, intermediate 2 and the speed trap in that order. Each row's delta is present exactly when both maxima are, and equals driver 1's maximum minus driver 2's. |
| Minisectors.StatusOf | docs/script.js:1531-1539 | Codes 2051, 2049, 2048 and 2064 read Purple, Green, Yellow and Pit Lane, each exactly for its code; an absent or other code reads N/A. |
| Minisectors.ChartValue | docs/script.js:1361-1362 | A bar is 1 exactly for 2051, 0.5 exactly for 2049, and 0 for every other code. |
| Minisectors.Compare | docs/script.js:1541-1548 | Driver 1 is "Fastest" exactly when only driver 1 is purple, driver 2 likewise. Codes are "Equal" exactly when they match. A side is "Better" exactly for green against yellow. |
| Minisectors.CompareMirror | docs/script.js:1542-1546 | Swapping the drivers' codes swaps the Fastest and Better verdicts and keeps Equal and N/A. |
| Minisectors.NotAvailableOtherwise | docs/script.js:1547 | Every pair outside the purple, equal and green-against-yellow cases reads N/A. |
| Minisectors.Driver2ChartRepeatsSector2 | docs/script.js:1339-1349 | Driver 2's chart codes are driver 1's layout with sector 1 replaced by sector 2. They differ from the correct layout whenever the two sectors' codes differ. |
| Minisectors.SectorRows | docs/script.js:1526-1557 | A sector has rows only when both drivers have a code list for it (an empty list counts). Then there is one row per driver-1 code, paired with driver 2's code at that index or with none. Each row shows both codes' statuses and the verdict of the comparison rule. |
| Minisectors.TableNumbering | docs/script.js:1502-1557 | Mini-sectors are numbered 1, 2, 3, … down the whole table, and sector 1's rows come before sector 2's and sector 3's. |
| Minisectors.CompareMinisectors | docs/script.js:1325-1362 | Each driver's lap is the one the fastest-lap reduce picks among laps that are not pit-out laps and have a time, so the earliest of equally fast laps wins. It is absent exactly when there is no such lap. Its codes are the chart layout, with sector 2 twice for driver 2. Its chart values follow from the codes, and the table compares the two laps. |

## Left out

- Fetching from the OpenF1 API, the dropdown cascade and the DOM/Chart.js rendering are
  left out: they are I/O and presentation. The model starts from the decoded lap and
  stint arrays.
- Driver names and codes (last name, three upper-case letters), colours, and the axis
  padding at `docs/script.js:370-371` are left out: they only label or style output.
- `formatTime` and `toFixed` are left out: the model keeps exact real values, with no
  rounding to text.
- Floating-point arithmetic is modelled with exact reals, so rounding in sums, averages
  and differences is not modelled.
- The analysis dispatcher (`docs/script.js:177`), `main.js`, the proxy server and the
  Python helper script are left out: they do no data shaping.
- Lap numbers are natural numbers. The JavaScript would write a lap numbered 0 to array
  index -1, which is not a slot; the model's slots likewise start at lap 1.
- FastestLap.QualifyingMatchIsCaseInsensitive: lower-casing covers ASCII letters only,
  where JavaScript's `toLowerCase` also folds non-ASCII letters.
- Segment codes are modelled as integers. A `null` inside a segment list is not modelled.
- The tyre timeline's colour and border per bar are represented by the bar's compound
  and presence only.

=== FILE: fastest_lap.dfy ===
/** The fastest-lap comparison: the optional qualifying-segment restriction, the
    validity filter, the fastest-lap reduction, the four bars per driver and the
    per-row delta of the table. */
module FastestLap {
  import opened Wrappers
  import opened Records
  import opened Reducers
  import opened Stints

  /** The requirements under which a valid lap is guaranteed a lap time. */
  predicate HasDuration(req: Requirement) {
    req.DurationOnly? || req.DurationAndSectors?
  }

  function Dur(l: Lap): real
    requires l.lapDuration.Some?
  {
    l.lapDuration.value
  }

  /** The reduction callback: a lap replaces the current fastest only when strictly quicker. */
  function ReduceStep(fastest: Option<Lap>, lap: Lap): Option<Lap>
    requires lap.lapDuration.Some?
    requires fastest.Some? ==> fastest.value.lapDuration.Some?
  {
    if fastest.None? || Dur(lap) < Dur(fastest.value) then Some(lap) else fastest
  }

  /** The fastest valid lap: the dashboard's `filter` followed by its `reduce`, fused into
      one pass that skips invalid laps (`FastestOfValidLaps` shows the two agree).
      None when no lap is valid. */
  function Fastest(laps: seq<Lap>, req: Requirement): (r: Option<Lap>)
    requires HasDuration(req)
    ensures r.None? <==> forall j :: 0 <= j < |laps| ==> !IsValid(laps[j], req)
    ensures r.Some? ==> r.value in laps && IsValid(r.value, req)
    ensures r.Some? ==> forall j :: 0 <= j < |laps| && IsValid(laps[j], req) ==> Dur(r.value) <= Dur(laps[j])
  {
    if |laps| == 0 then None
    else
      var n := |laps| - 1;
      var prev := Fastest(laps[..n], req);
      assert forall j :: 0 <= j < n ==> laps[..n][j] == laps[j];
      if IsValid(laps[n], req) then ReduceStep(prev, laps[n]) else prev
  }

  /** Reducing the already-filtered list picks the same lap as the fused pass. */
  lemma {:induction false} FastestOfValidLaps(laps: seq<Lap>, req: Requirement)
    requires HasDuration(req)
    ensures Fastest(ValidLaps(laps, req), req) == Fastest(laps, req)
  {
    if |laps| > 0 {
      var n := |laps| - 1;
      var p, x := laps[..n], laps[n];
      FastestOfValidLaps(p, req);
      var v, v' := ValidLaps(laps, req), ValidLaps(p, req);
      assert laps == p + [x];
      if IsValid(x, req) {
        assert v == v' + [x];
        assert v[..|v| - 1] == v';
      } else {
        assert v == v';
      }
    }
  }

  /** Lap `i` is valid and every valid lap before it is strictly slower. */
  predicate FirstMinimalAt(laps: seq<Lap>, req: Requirement, i: int) {
    && HasDuration(req)
    && 0 <= i < |laps|
    && IsValid(laps[i], req)
    && forall j :: 0 <= j < i && IsValid(laps[j], req) ==> Dur(laps[i]) < Dur(laps[j])
  }

  /** Ties go to the earliest lap in input order: every valid lap before the chosen
      one is strictly slower. */
  lemma {:induction false} FastestIsFirstMinimal(laps: seq<Lap>, req: Requirement)
    requires HasDuration(req)
    ensures Fastest(laps, req).Some? ==>
      exists i :: FirstMinimalAt(laps, req, i) && laps[i] == Fastest(laps, req).value
  {
    if |laps| > 0 {
      var n := |laps| - 1;
      var prev := Fastest(laps[..n], req);
      if IsValid(laps[n], req) && (prev.None? || Dur(laps[n]) < Dur(prev.value)) {
        NewFastestIsFirst(laps, req);
      } else if prev.Some? {
        FastestIsFirstMinimal(laps[..n], req);
        var i :| FirstMinimalAt(laps[..n], req, i) && laps[..n][i] == prev.value;
        FirstMinimalExtends(laps, req, i);
      }
    }
  }

  /** A last lap strictly quicker than the fastest of the laps before it is first minimal. */
  lemma NewFastestIsFirst(laps: seq<Lap>, req: Requirement)
    requires HasDuration(req) && |laps| > 0
    requires IsValid(laps[|laps| - 1], req)
    requires var prev := Fastest(laps[..|laps| - 1], req);
      prev.None? || Dur(laps[|laps| - 1]) < Dur(prev.value)
    ensures FirstMinimalAt(laps, req, |laps| - 1)
  {
    var n := |laps| - 1;
    forall j | 0 <= j < n && IsValid(laps[j], req)
      ensures Dur(laps[n]) < Dur(laps[j])
    {
      assert laps[..n][j] == laps[j];
    }
  }

  /** Appending laps keeps a first minimal position first minimal. */
  lemma FirstMinimalExtends(laps: seq<Lap>, req: Requirement, i: int)
    requires |laps| > 0 && FirstMinimalAt(laps[..|laps| - 1], req, i)
    ensures FirstMinimalAt(laps, req, i)
  {
    var p := laps[..|laps| - 1];
    assert forall j :: 0 <= j <= i ==> laps[j] == p[j];
  }

  // ---------------------------------------------------------------- qualifying gate

  function LowerChar(c: char): char {
    if 'A' <= c <= 'Z' then (c as int + 32) as char else c
  }

  /** `toLowerCase`, on the ASCII letters. */
  function AsciiLower(s: string): (r: string)
    ensures |r| == |s|
    ensures forall i :: 0 <= i < |s| ==> r[i] == LowerChar(s[i])
  {
    seq(|s|, i requires 0 <= i < |s| => LowerChar(s[i]))
  }

  /** `t` occurs somewhere in `s` as a contiguous run of characters. */
  predicate Contains(s: string, t: string)
    decreases |s|
  {
    |t| <= |s| && (s[..|t|] == t || (|s| > 0 && Contains(s[1..], t)))
  }

  predicate OccursAt(s: string, t: string, i: int) {
    0 <= i && i + |t| <= |s| && s[i..i + |t|] == t
  }

  /** `Contains` holds exactly when `t` occurs at some position of `s`. */
  lemma {:induction false} ContainsIff(s: string, t: string)
    ensures Contains(s, t) <==> exists i :: OccursAt(s, t, i)
    decreases |s|
  {
    if |t| <= |s| && s[..|t|] == t {
      assert OccursAt(s, t, 0);
    } else if |t| <= |s| && |s| > 0 {
      ContainsIff(s[1..], t);
      if exists i :: OccursAt(s, t, i) {
        var i :| OccursAt(s, t, i);
        assert i > 0;
        assert OccursAt(s[1..], t, i - 1);
      }
      if Contains(s[1..], t) {
        var i :| OccursAt(s[1..], t, i);
        assert OccursAt(s, t, i + 1);
      }
    }
  }

  /** The segment restriction is in force: the session's name mentions qualifying
      (case-insensitively) and a segment is selected. */
  predicate SegmentFilterApplies(sessionName: string, segment: string) {
    Contains(AsciiLower(sessionName), "qualifying") && segment != ""
  }

  /** The segment-to-stint map { Q1: 1, Q2: 2, Q3: 3 }; any other name maps to nothing. */
  function SegmentNumber(segment: string): (r: Option<int>)
    ensures segment == "Q1" ==> r == Some(1)
    ensures segment == "Q2" ==> r == Some(2)
    ensures segment == "Q3" ==> r == Some(3)
    ensures r.Some? <==> segment == "Q1" || segment == "Q2" || segment == "Q3"
  {
    if segment == "Q1" then Some(1)
    else if segment == "Q2" then Some(2)
    else if segment == "Q3" then Some(3)
    else None
  }

  /** The lap's first covering stint exists and carries the segment's number. */
  predicate InSegment(lap: Lap, stints: seq<Stint>, target: Option<int>) {
    match FindStint(stints, lap.lapNumber)
    case None => false
    case Some(i) => target == Some(stints[i].stintNumber)
  }

  /** The laps the fastest-lap analysis considers for one driver. */
  function InSegmentOf(stints: seq<Stint>, segment: string): Lap -> bool {
    (l: Lap) => InSegment(l, stints, SegmentNumber(segment))
  }

  function SegmentLaps(laps: seq<Lap>, stints: seq<Stint>, sessionName: string, segment: string): (r: seq<Lap>)
    ensures !SegmentFilterApplies(sessionName, segment) ==> r == laps
    ensures IsSubsequence(r, laps)
    ensures SegmentFilterApplies(sessionName, segment) ==>
      forall i :: 0 <= i < |r| ==> InSegment(r[i], stints, SegmentNumber(segment))
  {
    if SegmentFilterApplies(sessionName, segment) then
      FilterIsSubsequence(laps, InSegmentOf(stints, segment));
      Filter(laps, InSegmentOf(stints, segment))
    else
      assert IsSubsequence(laps, laps) by { SubsequenceReflexive(laps); }
      laps
  }

  // ---------------------------------------------------------------- the comparison

  /** The four bars of one driver: sector 1, sector 2, sector 3 and lap time of the
      fastest lap, or four nulls. */
  function ChartData(fastest: Option<Lap>): (r: seq<Option<real>>)
    ensures |r| == 4
    ensures fastest.None? ==> forall k :: 0 <= k < 4 ==> r[k].None?
    ensures fastest.Some? ==> r[0] == fastest.value.sector1 && r[1] == fastest.value.sector2
    ensures fastest.Some? ==> r[2] == fastest.value.sector3 && r[3] == fastest.value.lapDuration
  {
    match fastest
    case None => [None, None, None, None]
    case Some(l) => [l.sector1, l.sector2, l.sector3, l.lapDuration]
  }

  /** The delta column: one `Delta` per row. */
  function RowDeltas(d1: seq<Option<real>>, d2: seq<Option<real>>): (r: seq<Option<real>>)
    requires |d1| == |d2|
    ensures |r| == |d1|
    ensures forall k :: 0 <= k < |r| ==> r[k] == Delta(d1[k], d2[k])
  {
    seq(|d1|, k requires 0 <= k < |d1| => Delta(d1[k], d2[k]))
  }

  datatype FastestLapView = FastestLapView(
    lap1: Option<Lap>,
    lap2: Option<Lap>,
    data1: seq<Option<real>>,
    data2: seq<Option<real>>,
    deltas: seq<Option<real>>)

  function CompareFastestLaps(
    sessionName: string, segment: string,
    laps1: seq<Lap>, laps2: seq<Lap>,
    stints1: seq<Stint>, stints2: seq<Stint>): (v: FastestLapView)
    ensures v.lap1 == Fastest(SegmentLaps(laps1, stints1, sessionName, segment), DurationAndSectors)
    ensures v.lap2 == Fastest(SegmentLaps(laps2, stints2, sessionName, segment), DurationAndSectors)
    ensures v.data1 == ChartData(v.lap1) && v.data2 == ChartData(v.lap2)
    ensures |v.data1| == 4 && |v.data2| == 4 && |v.deltas| == 4
    ensures forall k :: 0 <= k < 4 ==>
      (v.deltas[k].Some? <==> Truthy(v.data1[k]) && Truthy(v.data2[k]))
    ensures forall k :: 0 <= k < 4 ==> v.deltas[k].Some? ==>
      v.data1[k].Some? && v.data2[k].Some? && v.deltas[k].value == v.data1[k].value - v.data2[k].value
  {
    var f1 := Fastest(SegmentLaps(laps1, stints1, sessionName, segment), DurationAndSectors);
    var f2 := Fastest(SegmentLaps(laps2, stints2, sessionName, segment), DurationAndSectors);
    var d1, d2 := ChartData(f1), ChartData(f2);
    FastestLapView(f1, f2, d1, d2, RowDeltas(d1, d2))
  }

  /** Each driver's four bars are all present when the driver has a fastest lap and
      all null otherwise; a driver without one makes every delta N/A. */
  lemma FastestTupleShape(
    sessionName: string, segment: string,
    laps1: seq<Lap>, laps2: seq<Lap>,
    stints1: seq<Stint>, stints2: seq<Stint>)
    ensures var v := CompareFastestLaps(sessionName, segment, laps1, laps2, stints1, stints2);
      && (v.lap1.Some? <==> forall k :: 0 <= k < 4 ==> v.data1[k].Some?)
      && (v.lap1.None? <==> forall k :: 0 <= k < 4 ==> v.data1[k].None?)
      && (v.lap2.Some? <==> forall k :: 0 <= k < 4 ==> v.data2[k].Some?)
      && (v.lap2.None? <==> forall k :: 0 <= k < 4 ==> v.data2[k].None?)
      && (v.lap1.None? || v.lap2.None? ==> forall k :: 0 <= k < 4 ==> v.deltas[k].None?)
  {
    var v := CompareFastestLaps(sessionName, segment, laps1, laps2, stints1, stints2);
    assert v.data1 == ChartData(v.lap1) && v.data2 == ChartData(v.lap2);
    ChartDataShape(v.lap1);
    ChartDataShape(v.lap2);
  }

  /** The bars of a lap that has all three sectors and a time are all present. */
  lemma ChartDataShape(fastest: Option<Lap>)
    requires fastest.Some? ==> IsValid(fastest.value, DurationAndSectors)
    ensures fastest.Some? <==> forall k :: 0 <= k < 4 ==> ChartData(fastest)[k].Some?
    ensures fastest.None? <==> forall k :: 0 <= k < 4 ==> ChartData(fastest)[k].None?
  {
    if fastest.Some? {
      assert ChartData(fastest)[0].Some?;
    } else {
      assert ChartData(fastest)[0].None?;
    }
  }

  /** `chosen` is absent exactly when no segment-eligible lap of the driver is valid;
      otherwise it is one of the driver's own laps, inside the selected segment when
      the restriction applies, not a pit-out lap, with a time and all three sectors,
      and no eligible valid lap is quicker. */
  predicate IsChosenLap(chosen: Option<Lap>, laps: seq<Lap>, stints: seq<Stint>, sessionName: string, segment: string) {
    var eligible := SegmentLaps(laps, stints, sessionName, segment);
    && (chosen.None? <==> forall j :: 0 <= j < |eligible| ==> !IsValid(eligible[j], DurationAndSectors))
    && (chosen.Some? ==>
         && chosen.value in laps
         && !chosen.value.isPitOutLap
         && chosen.value.lapDuration.Some?
         && chosen.value.sector1.Some? && chosen.value.sector2.Some? && chosen.value.sector3.Some?
         && (SegmentFilterApplies(sessionName, segment) ==>
               InSegment(chosen.value, stints, SegmentNumber(segment)))
         && forall j :: 0 <= j < |eligible| && IsValid(eligible[j], DurationAndSectors) ==>
              Dur(chosen.value) <= Dur(eligible[j]))
  }

  /** Both drivers' laps in the comparison are chosen as `IsChosenLap` describes. */
  lemma FastestLapChosen(
    sessionName: string, segment: string,
    laps1: seq<Lap>, laps2: seq<Lap>,
    stints1: seq<Stint>, stints2: seq<Stint>)
    ensures var v := CompareFastestLaps(sessionName, segment, laps1, laps2, stints1, stints2);
      && IsChosenLap(v.lap1, laps1, stints1, sessionName, segment)
      && IsChosenLap(v.lap2, laps2, stints2, sessionName, segment)
  {
    SegmentFastestChosen(laps1, stints1, sessionName, segment);
    SegmentFastestChosen(laps2, stints2, sessionName, segment);
  }

  /** One driver's fastest eligible lap is chosen as `IsChosenLap` describes. */
  lemma SegmentFastestChosen(laps: seq<Lap>, stints: seq<Stint>, sessionName: string, segment: string)
    ensures IsChosenLap(Fastest(SegmentLaps(laps, stints, sessionName, segment), DurationAndSectors),
                        laps, stints, sessionName, segment)
  {
    var eligible := SegmentLaps(laps, stints, sessionName, segment);
    var f := Fastest(eligible, DurationAndSectors);
    if f.Some? {
      SubsequenceMembers(eligible, laps);
      if SegmentFilterApplies(sessionName, segment) {
        var i :| 0 <= i < |eligible| && eligible[i] == f.value;
      }
    }
  }

  /** Outside a qualifying session, or with no segment selected, the stints are never
      consulted: any stint lists give the same comparison. */
  lemma StintsIgnoredWithoutSegment(
    sessionName: string, segment: string,
    laps1: seq<Lap>, laps2: seq<Lap>,
    stints1: seq<Stint>, stints2: seq<Stint>,
    other1: seq<Stint>, other2: seq<Stint>)
    requires !SegmentFilterApplies(sessionName, segment)
    ensures CompareFastestLaps(sessionName, segment, laps1, laps2, stints1, stints2)
         == CompareFastestLaps(sessionName, segment, laps1, laps2, other1, other2)
  {
  }

  /** A selected segment other than Q1, Q2 or Q3 in a qualifying session maps to no
      stint number, so every lap is filtered out and neither driver has a fastest lap. */
  lemma UnknownSegmentSelectsNothing(
    sessionName: string, segment: string,
    laps1: seq<Lap>, laps2: seq<Lap>,
    stints1: seq<Stint>, stints2: seq<Stint>)
    requires SegmentFilterApplies(sessionName, segment)
    requires segment != "Q1" && segment != "Q2" && segment != "Q3"
    ensures var v := CompareFastestLaps(sessionName, segment, laps1, laps2, stints1, stints2);
      v.lap1.None? && v.lap2.None? && forall k :: 0 <= k < 4 ==> v.deltas[k].None?
  {
    var e1 := SegmentLaps(laps1, stints1, sessionName, segment);
    var e2 := SegmentLaps(laps2, stints2, sessionName, segment);
    assert forall i :: 0 <= i < |e1| ==> InSegment(e1[i], stints1, None);
    assert forall i :: 0 <= i < |e2| ==> InSegment(e2[i], stints2, None);
  }

  /** With the restriction in force and segment Qk selected, a lap is eligible exactly
      when the first stint covering its number is stint k; laps no stint covers are dropped. */
  lemma SegmentMembership(laps: seq<Lap>, stints: seq<Stint>, sessionName: string, segment: string, lap: Lap)
    requires SegmentFilterApplies(sessionName, segment)
    requires lap in laps
    ensures lap in SegmentLaps(laps, stints, sessionName, segment) <==>
      match FindStint(stints, lap.lapNumber)
      case None => false
      case Some(i) => SegmentNumber(segment) == Some(stints[i].stintNumber)
  {
    FilterMembers(laps, InSegmentOf(stints, segment), lap);
  }

  /** The qualifying test ignores the case of ASCII letters: two session names that
      lower-case alike are treated alike, whatever segment is selected. */
  lemma QualifyingMatchIsCaseInsensitive(name1: string, name2: string, segment: string)
    requires AsciiLower(name1) == AsciiLower(name2)
    ensures SegmentFilterApplies(name1, segment) == SegmentFilterApplies(name2, segment)
  {
  }

  /** Examples: an upper-case session name qualifies, a race does not, and no segment
      selected turns the restriction off. */
  lemma QualifyingMatchExamples()
    ensures SegmentFilterApplies("QUALIFYING", "Q1")
    ensures !SegmentFilterApplies("Race", "Q1")
    ensures !SegmentFilterApplies("Qualifying", "")
  {
    assert AsciiLower("QUALIFYING")[..10] == "qualifying";
    assert !Contains(AsciiLower("Race"), "qualifying");
  }
}

=== FILE: lap_times.dfy ===
/** The lap-times comparison: valid laps sorted by lap number, two gap-filled
    series indexed by `lap_number - 1`, the personal-best highlight and the
    per-lap delta. */
module LapTimes {
  import opened Wrappers
  import opened Records
  import opened Reducers

  // ---------------------------------------------------------------- stable sort

  predicate SortedByNumber(s: seq<Lap>) {
    forall i, j :: 0 <= i < j < |s| ==> s[i].lapNumber <= s[j].lapNumber
  }

  /** Inserts `x` in front of every lap with the same or a larger number. */
  function Insert(x: Lap, s: seq<Lap>): (r: seq<Lap>)
    ensures SortedByNumber(s) ==> SortedByNumber(r)
    ensures |r| == |s| + 1 && (r[0] == x || (|s| > 0 && r[0] == s[0]))
  {
    if |s| == 0 || x.lapNumber <= s[0].lapNumber then [x] + s
    else [s[0]] + Insert(x, s[1..])
  }

  /** Orders the laps by ascending lap number. The sort is stable, as
      `Array.prototype.sort` is required to be. */
  function SortByLapNumber(xs: seq<Lap>): (r: seq<Lap>)
    ensures SortedByNumber(r)
    ensures |r| == |xs|
  {
    if |xs| == 0 then [] else Insert(xs[0], SortByLapNumber(xs[1..]))
  }

  /** Inserting adds exactly `x` to the laps. */
  lemma {:induction false} InsertPermutes(x: Lap, s: seq<Lap>)
    ensures multiset(Insert(x, s)) == multiset(s) + multiset{x}
    decreases |s|
  {
    if |s| > 0 && x.lapNumber > s[0].lapNumber {
      InsertPermutes(x, s[1..]);
      assert s == [s[0]] + s[1..];
    }
  }

  /** Sorting reorders the laps without losing or adding any. */
  lemma {:induction false} SortPermutes(xs: seq<Lap>)
    ensures multiset(SortByLapNumber(xs)) == multiset(xs)
    decreases |xs|
  {
    if |xs| > 0 {
      SortPermutes(xs[1..]);
      InsertPermutes(xs[0], SortByLapNumber(xs[1..]));
      assert xs == [xs[0]] + xs[1..];
    }
  }

  /** The laps numbered `n`, in order. */
  function NumberIs(n: nat): Lap -> bool {
    (l: Lap) => l.lapNumber == n
  }

  function WithNumber(laps: seq<Lap>, n: nat): seq<Lap> {
    Filter(laps, NumberIs(n))
  }

  lemma {:induction false} InsertStable(x: Lap, s: seq<Lap>, n: nat)
    ensures WithNumber(Insert(x, s), n) == WithNumber([x], n) + WithNumber(s, n)
    decreases |s|
  {
    var p := NumberIs(n);
    if |s| == 0 || x.lapNumber <= s[0].lapNumber {
      assert Insert(x, s) == [x] + s;
      FilterConcat([x], s, p);
    } else {
      InsertStable(x, s[1..], n);
      InsertBehind(x, s, n);
    }
  }

  /** The step of `InsertStable` where `x` goes behind the head: the head and `x`
      carry different numbers, so at most one of them survives the filter. */
  lemma InsertBehind(x: Lap, s: seq<Lap>, n: nat)
    requires |s| > 0 && x.lapNumber > s[0].lapNumber
    requires WithNumber(Insert(x, s[1..]), n) == WithNumber([x], n) + WithNumber(s[1..], n)
    ensures WithNumber(Insert(x, s), n) == WithNumber([x], n) + WithNumber(s, n)
  {
    InsertPastHead(x, s);
    assert s == [s[0]] + s[1..];
    FilterPastHead(s[0], x, s[1..], Insert(x, s[1..]), Insert(x, s), s, NumberIs(n));
  }

  /** A lap numbered above the head is inserted into the tail. */
  lemma InsertPastHead(x: Lap, s: seq<Lap>)
    requires |s| > 0 && x.lapNumber > s[0].lapNumber
    ensures Insert(x, s) == [s[0]] + Insert(x, s[1..])
  {
  }

  /** When the filtered `rest` is `x`'s part followed by `t`'s, and the head `h` and `x`
      are not both kept, putting `h` in front moves it past `x`'s part. */
  lemma FilterPastHead<T>(h: T, x: T, t: seq<T>, rest: seq<T>, whole: seq<T>, orig: seq<T>, p: T -> bool)
    requires whole == [h] + rest && orig == [h] + t
    requires Filter(rest, p) == Filter([x], p) + Filter(t, p)
    requires !(p(h) && p(x))
    ensures Filter(whole, p) == Filter([x], p) + Filter(orig, p)
  {
    var a, fx, ft := Filter([h], p), Filter([x], p), Filter(t, p);
    assert Filter(whole, p) == a + Filter(rest, p) by { FilterConcat([h], rest, p); }
    assert Filter(orig, p) == a + ft by { FilterConcat([h], t, p); }
    assert a == [] || fx == [] by {
      FilterSingleton(x, p);
      FilterSingleton(h, p);
    }
    EmptyCommutes(a, fx, ft);
  }

  /** When one of `a` and `b` is empty, the two can trade places in front of `c`. */
  lemma EmptyCommutes<T>(a: seq<T>, b: seq<T>, c: seq<T>)
    requires a == [] || b == []
    ensures a + (b + c) == b + (a + c)
  {
    if a == [] {
      assert a + (b + c) == b + c == b + (a + c);
    } else {
      assert a + (b + c) == a + c == b + (a + c);
    }
  }

  /** Stability: the sort keeps the laps sharing a number in their input order. */
  lemma {:induction false} SortStable(xs: seq<Lap>, n: nat)
    ensures WithNumber(SortByLapNumber(xs), n) == WithNumber(xs, n)
    decreases |xs|
  {
    if |xs| > 0 {
      SortStable(xs[1..], n);
      InsertStable(xs[0], SortByLapNumber(xs[1..]), n);
      FilterConcat([xs[0]], xs[1..], NumberIs(n));
      assert xs == [xs[0]] + xs[1..];
    }
  }

  // ---------------------------------------------------------------- series

  /** The largest lap number in the list, 0 for an empty list. */
  function MaxLapNumber(laps: seq<Lap>): (r: nat)
    ensures forall i :: 0 <= i < |laps| ==> laps[i].lapNumber <= r
    ensures r == 0 || exists i :: 0 <= i < |laps| && laps[i].lapNumber == r
  {
    if |laps| == 0 then 0
    else
      var n := |laps| - 1;
      var m := MaxLapNumber(laps[..n]);
      assert forall i :: 0 <= i < n ==> laps[..n][i] == laps[i];
      if laps[n].lapNumber > m then laps[n].lapNumber else m
  }

  /** The number of the last lap of a sorted list, 0 for an empty list. */
  function LastNumber(sorted: seq<Lap>): nat {
    if |sorted| == 0 then 0 else sorted[|sorted| - 1].lapNumber
  }

  /** After sorting, the last lap carries the largest number. */
  lemma LastOfSortedIsMax(xs: seq<Lap>)
    ensures LastNumber(SortByLapNumber(xs)) == MaxLapNumber(xs)
  {
    var s := SortByLapNumber(xs);
    SortPermutes(xs);
    PermutationSameMax(s, xs);
    if |s| > 0 {
      SortedLastIsMax(s);
    }
  }

  /** The last lap of a sorted non-empty list has its largest number. */
  lemma SortedLastIsMax(s: seq<Lap>)
    requires SortedByNumber(s) && |s| > 0
    ensures s[|s| - 1].lapNumber == MaxLapNumber(s)
  {
    var m := MaxLapNumber(s);
    if m > 0 {
      var i :| 0 <= i < |s| && s[i].lapNumber == m;
    }
  }

  /** Reordering a list does not change its largest lap number. */
  lemma PermutationSameMax(a: seq<Lap>, b: seq<Lap>)
    requires multiset(a) == multiset(b)
    ensures MaxLapNumber(a) == MaxLapNumber(b)
  {
    MaxBelow(a, b);
    MaxBelow(b, a);
  }

  lemma MaxBelow(a: seq<Lap>, b: seq<Lap>)
    requires multiset(a) == multiset(b)
    ensures MaxLapNumber(a) <= MaxLapNumber(b)
  {
    var m := MaxLapNumber(a);
    if m > 0 {
      var i :| 0 <= i < |a| && a[i].lapNumber == m;
      assert a[i] in multiset(b);
      var k :| 0 <= k < |b| && b[k] == a[i];
    }
  }

  /** Writes the lap's time into the slot one below its lap number; lap 0 names no slot. */
  function Assign(series: seq<Option<real>>, lap: Lap): (r: seq<Option<real>>)
    ensures |r| == |series|
  {
    if 1 <= lap.lapNumber <= |series| then series[lap.lapNumber - 1 := lap.lapDuration] else series
  }

  /** The `forEach` writing each lap into its slot, in list order. */
  function Place(series: seq<Option<real>>, laps: seq<Lap>): (r: seq<Option<real>>)
    ensures |r| == |series|
  {
    if |laps| == 0 then series else Assign(Place(series, laps[..|laps| - 1]), laps[|laps| - 1])
  }

  /** The reference value of slot `n - 1`: the time of the last lap numbered `n`,
      None when there is none. */
  function LastDurationFor(laps: seq<Lap>, n: nat): Option<real> {
    var w := WithNumber(laps, n);
    if |w| == 0 then None else w[|w| - 1].lapDuration
  }

  /** Each slot of a series filled from an empty one holds the time of the last lap
      written with that number, or stays empty. */
  lemma {:induction false} PlaceSlot(len: nat, laps: seq<Lap>, i: nat)
    requires i < len
    ensures Place(seq(len, _ => None), laps)[i] == LastDurationFor(laps, i + 1)
    decreases |laps|
  {
    if |laps| > 0 {
      var n := |laps| - 1;
      PlaceSlot(len, laps[..n], i);
    }
  }

  /** A valid lap list's times, in order. */
  function Durations(laps: seq<Lap>): (r: seq<real>)
    requires forall i :: 0 <= i < |laps| ==> laps[i].lapDuration.Some?
    ensures |r| == |laps|
    ensures forall i :: 0 <= i < |laps| ==> r[i] == laps[i].lapDuration.value
  {
    seq(|laps|, i requires 0 <= i < |laps| => laps[i].lapDuration.value)
  }

  /** The styling test: a slot is highlighted when it is filled and holds exactly the
      personal best. */
  function Highlight(series: seq<Option<real>>, best: Option<real>): (r: seq<bool>)
    ensures |r| == |series|
    ensures forall i :: 0 <= i < |series| ==> (r[i] <==> series[i].Some? && series[i] == best)
  {
    seq(|series|, i requires 0 <= i < |series| => series[i].Some? && series[i] == best)
  }

  datatype LapTimesView = LapTimesView(
    series1: seq<Option<real>>,
    series2: seq<Option<real>>,
    best1: Option<real>,
    best2: Option<real>,
    highlight1: seq<bool>,
    highlight2: seq<bool>,
    deltas: seq<Option<real>>)

  function Max(a: nat, b: nat): nat {
    if a < b then b else a
  }

  /** One driver's laps as the chart uses them: valid for lap times, sorted by number. */
  function SortedValid(laps: seq<Lap>): seq<Lap> {
    SortByLapNumber(ValidLaps(laps, DurationOnly))
  }

  /** The personal best: the smallest valid lap time, None when there is no valid lap.
      The minimum is taken before sorting, which does not change it. */
  function PersonalBest(laps: seq<Lap>): (r: Option<real>)
    ensures r.None? <==> forall i :: 0 <= i < |laps| ==> !IsValid(laps[i], DurationOnly)
    ensures r.Some? ==> exists k :: 0 <= k < |laps| && IsValid(laps[k], DurationOnly) && laps[k].lapDuration == r
    ensures r.Some? ==> forall k :: 0 <= k < |laps| && IsValid(laps[k], DurationOnly) ==>
      r.value <= laps[k].lapDuration.value
  {
    MinDurationIsBest(laps);
    MinOf(Durations(ValidLaps(laps, DurationOnly)))
  }

  /** The smallest time of the valid laps is some valid lap's time, no valid lap is
      quicker, and it is missing exactly when no lap is valid. */
  lemma MinDurationIsBest(laps: seq<Lap>)
    ensures var m := MinOf(Durations(ValidLaps(laps, DurationOnly)));
      && (m.None? <==> forall i :: 0 <= i < |laps| ==> !IsValid(laps[i], DurationOnly))
      && (m.Some? ==> exists k :: 0 <= k < |laps| && IsValid(laps[k], DurationOnly) && laps[k].lapDuration == m)
      && (m.Some? ==> forall k :: 0 <= k < |laps| && IsValid(laps[k], DurationOnly) ==>
            m.value <= laps[k].lapDuration.value)
  {
    var valid := ValidLaps(laps, DurationOnly);
    var ds := Durations(valid);
    var m := MinOf(ds);
    if m.None? {
      NoValidLaps(laps, DurationOnly);
    } else {
      var j :| 0 <= j < |ds| && ds[j] == m.value;
      ValidLapsMembers(laps, DurationOnly, valid[j]);
      var k :| 0 <= k < |laps| && laps[k] == valid[j];
      assert IsValid(laps[k], DurationOnly) && laps[k].lapDuration == m;
      forall k | 0 <= k < |laps| && IsValid(laps[k], DurationOnly)
        ensures m.value <= laps[k].lapDuration.value
      {
        ValidLapsMembers(laps, DurationOnly, laps[k]);
        var i :| 0 <= i < |valid| && valid[i] == laps[k];
        assert ds[i] == laps[k].lapDuration.value;
      }
    }
  }

  /** The length of both series: the larger last lap number after sorting. */
  function SeriesLength(laps1: seq<Lap>, laps2: seq<Lap>): nat {
    Max(LastNumber(SortedValid(laps1)), LastNumber(SortedValid(laps2)))
  }

  /** One driver's gap-filled series of `len` slots. */
  function Series(laps: seq<Lap>, len: nat): (r: seq<Option<real>>)
    ensures |r| == len
  {
    Place(seq(len, _ => None), SortedValid(laps))
  }

  function CompareLapTimes(laps1: seq<Lap>, laps2: seq<Lap>): (v: LapTimesView)
    ensures v.series1 == Series(laps1, SeriesLength(laps1, laps2))
    ensures v.series2 == Series(laps2, SeriesLength(laps1, laps2))
    ensures v.best1 == PersonalBest(laps1) && v.best2 == PersonalBest(laps2)
    ensures v.highlight1 == Highlight(v.series1, v.best1) && v.highlight2 == Highlight(v.series2, v.best2)
    ensures |v.series1| == |v.series2| == |v.highlight1| == |v.highlight2| == |v.deltas|
    ensures forall i :: 0 <= i < |v.deltas| ==> v.deltas[i] == Delta(v.series1[i], v.series2[i])
  {
    var len := SeriesLength(laps1, laps2);
    var s1, s2 := Series(laps1, len), Series(laps2, len);
    var best1, best2 := PersonalBest(laps1), PersonalBest(laps2);
    LapTimesView(s1, s2, best1, best2, Highlight(s1, best1), Highlight(s2, best2),
      seq(len, i requires 0 <= i < len => Delta(s1[i], s2[i])))
  }

  /** The series length is the larger of the two drivers' highest valid lap numbers,
      0 when neither driver has a valid lap. */
  lemma SeriesLengthIsMaxLapNumber(laps1: seq<Lap>, laps2: seq<Lap>)
    ensures SeriesLength(laps1, laps2) ==
      Max(MaxLapNumber(ValidLaps(laps1, DurationOnly)), MaxLapNumber(ValidLaps(laps2, DurationOnly)))
  {
    LastOfSortedIsMax(ValidLaps(laps1, DurationOnly));
    LastOfSortedIsMax(ValidLaps(laps2, DurationOnly));
  }

  /** Slot i holds the time of the driver's last valid lap numbered i + 1 in input
      order, or nothing when no valid lap has that number. */
  lemma SeriesSlot(laps: seq<Lap>, len: nat, i: nat)
    requires i < len
    ensures Series(laps, len)[i] == LastDurationFor(ValidLaps(laps, DurationOnly), i + 1)
  {
    PlaceSlot(len, SortedValid(laps), i);
    SortStable(ValidLaps(laps, DurationOnly), i + 1);
  }

  /** Every valid lap numbered at least 1 fills its slot of its driver's series,
      whether that driver is shown as driver 1 or as driver 2: the row count does not
      depend on the order of the drivers. */
  lemma ValidLapHasSlot(laps1: seq<Lap>, laps2: seq<Lap>, k: nat)
    requires k < |laps1| && IsValid(laps1[k], DurationOnly) && laps1[k].lapNumber >= 1
    ensures SeriesLength(laps1, laps2) == SeriesLength(laps2, laps1)
    ensures laps1[k].lapNumber <= SeriesLength(laps1, laps2)
    ensures Series(laps1, SeriesLength(laps1, laps2))[laps1[k].lapNumber - 1].Some?
    ensures CompareLapTimes(laps1, laps2).series1[laps1[k].lapNumber - 1].Some?
    ensures CompareLapTimes(laps2, laps1).series2[laps1[k].lapNumber - 1].Some?
  {
    var valid := ValidLaps(laps1, DurationOnly);
    var n := laps1[k].lapNumber;
    assert exists j :: 0 <= j < |valid| && valid[j] == laps1[k] by {
      ValidLapsMembers(laps1, DurationOnly, laps1[k]);
    }
    var j :| 0 <= j < |valid| && valid[j] == laps1[k];
    assert n <= SeriesLength(laps1, laps2) by {
      assert n <= MaxLapNumber(valid);
      SeriesLengthIsMaxLapNumber(laps1, laps2);
    }
    SlotFilled(laps1, SeriesLength(laps1, laps2), j);
  }

  /** The slot of the j-th valid lap's number is filled in any series long enough. */
  lemma SlotFilled(laps: seq<Lap>, len: nat, j: nat)
    requires j < |ValidLaps(laps, DurationOnly)|
    requires 1 <= ValidLaps(laps, DurationOnly)[j].lapNumber <= len
    ensures Series(laps, len)[ValidLaps(laps, DurationOnly)[j].lapNumber - 1].Some?
  {
    var valid := ValidLaps(laps, DurationOnly);
    var n := valid[j].lapNumber;
    SeriesSlot(laps, len, n - 1);
    LastWithNumberHasDuration(valid, n, j);
  }

  /** In a list of valid laps, a number some lap carries has a recorded last time. */
  lemma LastWithNumberHasDuration(valid: seq<Lap>, n: nat, j: nat)
    requires j < |valid| && valid[j].lapNumber == n
    requires forall i :: 0 <= i < |valid| ==> IsValid(valid[i], DurationOnly)
    ensures LastDurationFor(valid, n).Some?
  {
    FilterMembers(valid, NumberIs(n), valid[j]);
    var w := WithNumber(valid, n);
    FilterMembers(valid, NumberIs(n), w[|w| - 1]);
  }

  /** A filled slot holds the time of one of the driver's valid laps. */
  lemma SlotIsValidLapTime(laps: seq<Lap>, len: nat, i: nat)
    requires i < len && Series(laps, len)[i].Some?
    ensures exists k :: 0 <= k < |laps| && IsValid(laps[k], DurationOnly) && laps[k].lapDuration == Series(laps, len)[i]
  {
    SeriesSlot(laps, len, i);
    var valid := ValidLaps(laps, DurationOnly);
    var w := WithNumber(valid, i + 1);
    FilterMembers(valid, NumberIs(i + 1), w[|w| - 1]);
    ValidLapsMembers(laps, DurationOnly, w[|w| - 1]);
    var k :| 0 <= k < |laps| && laps[k] == w[|w| - 1];
  }

  /** In both drivers' columns, a slot is highlighted exactly when it is filled and
      no valid lap of that driver is quicker than the time it holds. */
  lemma HighlightIsPersonalBest(laps1: seq<Lap>, laps2: seq<Lap>, i: nat)
    requires i < |CompareLapTimes(laps1, laps2).highlight1|
    ensures var v := CompareLapTimes(laps1, laps2);
      && (v.highlight1[i] <==> IsQuickestSlot(v.series1, i, laps1))
      && (v.highlight2[i] <==> IsQuickestSlot(v.series2, i, laps2))
  {
    var len := SeriesLength(laps1, laps2);
    SlotHighlight(laps1, len, i);
    SlotHighlight(laps2, len, i);
  }

  /** Slot `i` holds a time and no valid lap of `laps` is quicker. */
  predicate IsQuickestSlot(series: seq<Option<real>>, i: nat, laps: seq<Lap>)
    requires i < |series|
  {
    && series[i].Some?
    && forall k :: 0 <= k < |laps| && IsValid(laps[k], DurationOnly) ==>
         series[i].value <= laps[k].lapDuration.value
  }

  /** One driver's highlight: set exactly on the slots that hold the quickest time. */
  lemma SlotHighlight(laps: seq<Lap>, len: nat, i: nat)
    requires i < len
    ensures Highlight(Series(laps, len), PersonalBest(laps))[i] <==> IsQuickestSlot(Series(laps, len), i, laps)
  {
    if Series(laps, len)[i].Some? {
      SlotIsValidLapTime(laps, len, i);
    }
  }
}

=== FILE: minisectors.dfy ===
/** The mini-sector comparison: each driver's fastest lap (not pit-out, with a lap
    time), its mini-sector status codes laid out for the chart, and the per-sector
    table comparing the two drivers' codes position by position.

    The chart lays out driver 2's codes as sector 2, sector 2 again, then sector 3,
    as the dashboard does (see `Driver2ChartRepeatsSector2`); the table pairs the
    sectors correctly. */
module Minisectors {
  import opened Wrappers
  import opened Records
  import FastestLap

  const YELLOW: int := 2048    // standard
  const GREEN: int := 2049     // personal best
  const PURPLE: int := 2051    // overall best
  const PIT_LANE: int := 2064

  datatype Status = Purple | Green | Yellow | PitLane | Unknown

  /** The table text of a code; an absent code (driver 2 has fewer mini-sectors) is unknown. */
  function StatusOf(code: Option<int>): (r: Status)
    ensures r == Purple <==> code == Some(PURPLE)
    ensures r == Green <==> code == Some(GREEN)
    ensures r == Yellow <==> code == Some(YELLOW)
    ensures r == PitLane <==> code == Some(PIT_LANE)
  {
    match code
    case None => Unknown
    case Some(c) =>
      if c == PURPLE then Purple
      else if c == GREEN then Green
      else if c == YELLOW then Yellow
      else if c == PIT_LANE then PitLane
      else Unknown
  }

  /** The bar height of a code in the chart. */
  function ChartValue(code: int): (r: real)
    ensures r == 1.0 <==> code == PURPLE
    ensures r == 0.5 <==> code == GREEN
    ensures r == 0.0 <==> code != PURPLE && code != GREEN
  {
    if code == PURPLE then 1.0 else if code == GREEN then 0.5 else 0.0
  }

  datatype Verdict = Driver1Fastest | Driver2Fastest | Equal | Driver1Better | Driver2Better | NotAvailable

  /** The comparison column for driver 1's code `c1` against driver 2's code at the
      same position, absent when driver 2 has fewer codes. Each outcome is
      characterised on its own; together they cover every pair. */
  function Compare(c1: int, c2: Option<int>): (r: Verdict)
    ensures r == Driver1Fastest <==> c1 == PURPLE && c2 != Some(PURPLE)
    ensures r == Driver2Fastest <==> c2 == Some(PURPLE) && c1 != PURPLE
    ensures r == Equal <==> c2 == Some(c1)
    ensures r == Driver1Better <==> c1 == GREEN && c2 == Some(YELLOW)
    ensures r == Driver2Better <==> c2 == Some(GREEN) && c1 == YELLOW
  {
    if c1 == PURPLE && c2 != Some(PURPLE) then Driver1Fastest
    else if c2 == Some(PURPLE) && c1 != PURPLE then Driver2Fastest
    else if c2 == Some(c1) then Equal
    else if c1 == GREEN && c2 == Some(YELLOW) then Driver1Better
    else if c2 == Some(GREEN) && c1 == YELLOW then Driver2Better
    else NotAvailable
  }

  function Mirror(v: Verdict): Verdict {
    match v
    case Driver1Fastest => Driver2Fastest
    case Driver2Fastest => Driver1Fastest
    case Driver1Better => Driver2Better
    case Driver2Better => Driver1Better
    case other => other
  }

  /** Swapping the drivers swaps the winner and keeps Equal and N/A. */
  lemma CompareMirror(a: int, b: int)
    ensures Compare(a, Some(b)) == Mirror(Compare(b, Some(a)))
  {
  }

  /** Only the closed table produces a verdict other than N/A: one side purple, equal
      codes, or green against yellow. */
  lemma NotAvailableOtherwise(c1: int, c2: Option<int>)
    requires c1 != PURPLE && c2 != Some(PURPLE) && c2 != Some(c1)
    requires !(c1 == GREEN && c2 == Some(YELLOW)) && !(c2 == Some(GREEN) && c1 == YELLOW)
    ensures Compare(c1, c2) == NotAvailable
  {
  }

  // ---------------------------------------------------------------- chart

  /** The code list of one sector of the fastest lap; absent lap or list gives none. */
  function SectorCodes(lap: Option<Lap>, sector: nat): Option<seq<int>> {
    match lap
    case None => None
    case Some(l) => if sector == 1 then l.segments1 else if sector == 2 then l.segments2 else l.segments3
  }

  function Codes(segs: Option<seq<int>>): seq<int> {
    segs.GetOr([])
  }

  /** Driver 1's chart codes: sectors 1, 2 and 3 in order. */
  function ChartCodes1(lap: Option<Lap>): seq<int> {
    Codes(SectorCodes(lap, 1)) + Codes(SectorCodes(lap, 2)) + Codes(SectorCodes(lap, 3))
  }

  /** Driver 2's chart codes as the dashboard builds them: sector 2 twice, then sector 3. */
  function ChartCodes2(lap: Option<Lap>): seq<int> {
    Codes(SectorCodes(lap, 2)) + Codes(SectorCodes(lap, 2)) + Codes(SectorCodes(lap, 3))
  }

  /** The bar heights of a code list, position by position. */
  function ChartValues(codes: seq<int>): (r: seq<real>)
    ensures |r| == |codes|
    ensures forall i :: 0 <= i < |codes| ==> r[i] == ChartValue(codes[i])
  {
    seq(|codes|, i requires 0 <= i < |codes| => ChartValue(codes[i]))
  }

  /** Driver 2's chart shows the sector 2 codes where sector 1's belong: it is driver 1's
      layout of the same lap with sector 1's codes replaced by sector 2's, and it differs
      from driver 1's layout whenever the two sectors' codes differ. */
  lemma Driver2ChartRepeatsSector2(l: Lap)
    ensures ChartCodes2(Some(l)) == ChartCodes1(Some(l.(segments1 := l.segments2)))
    ensures Codes(l.segments1) != Codes(l.segments2) ==> ChartCodes2(Some(l)) != ChartCodes1(Some(l))
  {
    var a, b, c := Codes(l.segments1), Codes(l.segments2), Codes(l.segments3);
    if a != b {
      if |a| == |b| {
        var i :| 0 <= i < |a| && a[i] != b[i];
        assert (a + b + c)[i] == a[i];
        assert (b + b + c)[i] == b[i];
      } else {
        assert |a + b + c| != |b + b + c|;
      }
    }
  }

  // ---------------------------------------------------------------- table

  datatype Row = Row(
    number: nat,
    sector: nat,
    code1: int,
    code2: Option<int>,
    status1: Status,
    status2: Status,
    verdict: Verdict)

  /** The rows of one sector: one per driver-1 code, paired with driver 2's code at the
      same position; no rows unless both drivers have a code list for the sector. */
  function SectorRows(segs1: Option<seq<int>>, segs2: Option<seq<int>>, sector: nat, first: nat): (r: seq<Row>)
    ensures segs1.None? || segs2.None? ==> r == []
    ensures segs1.Some? && segs2.Some? ==> |r| == |segs1.value|
    ensures forall i :: 0 <= i < |r| ==>
      && segs1.Some? && segs2.Some?
      && r[i].number == first + i
      && r[i].sector == sector
      && r[i].code1 == segs1.value[i]
      && r[i].code2 == (if i < |segs2.value| then Some(segs2.value[i]) else None)
      && r[i].status1 == StatusOf(Some(r[i].code1))
      && r[i].status2 == StatusOf(r[i].code2)
      && r[i].verdict == Compare(r[i].code1, r[i].code2)
  {
    match (segs1, segs2)
    case (Some(a), Some(b)) =>
      seq(|a|, i requires 0 <= i < |a| =>
        var c2 := if i < |b| then Some(b[i]) else None;
        Row(first + i, sector, a[i], c2, StatusOf(Some(a[i])), StatusOf(c2), Compare(a[i], c2)))
    case _ => []
  }

  /** The whole table: sector 1, 2 and 3 rows, mini-sectors numbered on across sectors. */
  function Table(lap1: Option<Lap>, lap2: Option<Lap>): seq<Row> {
    var rows1 := SectorRows(SectorCodes(lap1, 1), SectorCodes(lap2, 1), 1, 1);
    var rows2 := SectorRows(SectorCodes(lap1, 2), SectorCodes(lap2, 2), 2, 1 + |rows1|);
    var rows3 := SectorRows(SectorCodes(lap1, 3), SectorCodes(lap2, 3), 3, 1 + |rows1| + |rows2|);
    rows1 + rows2 + rows3
  }

  /** Mini-sectors are numbered 1, 2, 3, … down the whole table, and a sector's rows
      come before the next sector's. */
  lemma TableNumbering(lap1: Option<Lap>, lap2: Option<Lap>)
    ensures var t := Table(lap1, lap2);
      && (forall i :: 0 <= i < |t| ==> t[i].number == i + 1)
      && (forall i, j :: 0 <= i < j < |t| ==> t[i].sector <= t[j].sector)
  {
    var rows1 := SectorRows(SectorCodes(lap1, 1), SectorCodes(lap2, 1), 1, 1);
    var rows2 := SectorRows(SectorCodes(lap1, 2), SectorCodes(lap2, 2), 2, 1 + |rows1|);
    var rows3 := SectorRows(SectorCodes(lap1, 3), SectorCodes(lap2, 3), 3, 1 + |rows1| + |rows2|);
    ConcatTable(rows1, rows2, rows3);
  }

  /** Three sectors' rows, each numbered on from the previous, joined in sector order. */
  lemma ConcatTable(rows1: seq<Row>, rows2: seq<Row>, rows3: seq<Row>)
    requires NumberedFrom(rows1, 1) && NumberedFrom(rows2, 1 + |rows1|) && NumberedFrom(rows3, 1 + |rows1| + |rows2|)
    requires forall i :: 0 <= i < |rows1| ==> rows1[i].sector == 1
    requires forall i :: 0 <= i < |rows2| ==> rows2[i].sector == 2
    requires forall i :: 0 <= i < |rows3| ==> rows3[i].sector == 3
    ensures forall i :: 0 <= i < |rows1 + rows2 + rows3| ==> (rows1 + rows2 + rows3)[i].number == i + 1
    ensures forall i, j :: 0 <= i < j < |rows1 + rows2 + rows3| ==>
      (rows1 + rows2 + rows3)[i].sector <= (rows1 + rows2 + rows3)[j].sector
  {
    ConcatNumbered(rows1, rows2, 1);
    ConcatNumbered(rows1 + rows2, rows3, 1);
    ConcatSectors(rows1, rows2, rows3);
  }

  predicate NumberedFrom(rows: seq<Row>, first: nat) {
    forall i :: 0 <= i < |rows| ==> rows[i].number == first + i
  }

  lemma ConcatNumbered(a: seq<Row>, b: seq<Row>, first: nat)
    requires NumberedFrom(a, first) && NumberedFrom(b, first + |a|)
    ensures NumberedFrom(a + b, first)
  {
    assert forall i :: |a| <= i < |a| + |b| ==> (a + b)[i] == b[i - |a|];
  }

  /** Rows of sectors 1, 2 and 3, in that order, are ordered by sector. */
  lemma ConcatSectors(a: seq<Row>, b: seq<Row>, c: seq<Row>)
    requires forall i :: 0 <= i < |a| ==> a[i].sector == 1
    requires forall i :: 0 <= i < |b| ==> b[i].sector == 2
    requires forall i :: 0 <= i < |c| ==> c[i].sector == 3
    ensures forall i, j :: 0 <= i < j < |a + b + c| ==> (a + b + c)[i].sector <= (a + b + c)[j].sector
  {
    var t := a + b + c;
    forall i | 0 <= i < |t|
      ensures t[i].sector == Band(i, |a|, |b|)
    {
      if i < |a| {
        assert t[i] == a[i];
      } else if i < |a| + |b| {
        assert t[i] == b[i - |a|];
      } else {
        assert t[i] == c[i - |a| - |b|];
      }
    }
  }

  /** The sector of table position `i` when the sectors have `n1` and `n2` rows. */
  function Band(i: nat, n1: nat, n2: nat): nat {
    if i < n1 then 1 else if i < n1 + n2 then 2 else 3
  }

  datatype MinisectorsView = MinisectorsView(
    lap1: Option<Lap>,
    lap2: Option<Lap>,
    codes1: seq<int>,
    codes2: seq<int>,
    values1: seq<real>,
    values2: seq<real>,
    rows: seq<Row>)

  function CompareMinisectors(laps1: seq<Lap>, laps2: seq<Lap>): (v: MinisectorsView)
    ensures v.lap1.Some? ==> v.lap1.value in laps1 && !v.lap1.value.isPitOutLap && v.lap1.value.lapDuration.Some?
    ensures v.lap2.Some? ==> v.lap2.value in laps2 && !v.lap2.value.isPitOutLap && v.lap2.value.lapDuration.Some?
    ensures v.lap1 == FastestLap.Fastest(laps1, DurationOnly) && v.lap2 == FastestLap.Fastest(laps2, DurationOnly)
    ensures v.lap1.None? <==> forall i :: 0 <= i < |laps1| ==> !IsValid(laps1[i], DurationOnly)
    ensures v.lap2.None? <==> forall i :: 0 <= i < |laps2| ==> !IsValid(laps2[i], DurationOnly)
    ensures v.lap1.Some? ==> forall i :: 0 <= i < |laps1| && IsValid(laps1[i], DurationOnly) ==>
      v.lap1.value.lapDuration.value <= laps1[i].lapDuration.value
    ensures v.lap2.Some? ==> forall i :: 0 <= i < |laps2| && IsValid(laps2[i], DurationOnly) ==>
      v.lap2.value.lapDuration.value <= laps2[i].lapDuration.value
    ensures v.codes1 == ChartCodes1(v.lap1) && v.codes2 == ChartCodes2(v.lap2)
    ensures v.values1 == ChartValues(v.codes1) && v.values2 == ChartValues(v.codes2)
    ensures v.rows == Table(v.lap1, v.lap2)
    ensures |v.values1| == |v.codes1| && |v.values2| == |v.codes2|
    ensures v.lap1.None? ==> v.codes1 == [] && v.rows == []
    ensures v.lap2.None? ==> v.codes2 == [] && v.rows == []
  {
    var f1 := FastestLap.Fastest(laps1, DurationOnly);
    var f2 := FastestLap.Fastest(laps2, DurationOnly);
    var c1, c2 := ChartCodes1(f1), ChartCodes2(f2);
    MinisectorsView(f1, f2, c1, c2, ChartValues(c1), ChartValues(c2), Table(f1, f2))
  }

  /** Example: codes [2051, 2049, 2048] against [2049, 2049, 2051] in sector 1 give
      driver 1 fastest, equal, driver 2 fastest. */
  lemma CompareExample()
    ensures SectorRows(Some([2051, 2049, 2048]), Some([2049, 2049, 2051]), 1, 1)[0].verdict == Driver1Fastest
    ensures SectorRows(Some([2051, 2049, 2048]), Some([2049, 2049, 2051]), 1, 1)[1].verdict == Equal
    ensures SectorRows(Some([2051, 2049, 2048]), Some([2049, 2049, 2051]), 1, 1)[2].verdict == Driver2Fastest
  {
  }
}

=== FILE: records.dfy ===
/** The records the dashboard receives from the telemetry API, the lap-validity
    rules each analysis applies to them, and the order-preserving filter they
    are applied with. */
module Records {
  import opened Wrappers

  /** One lap of one driver. Every field the API may deliver as null is an
      `Option`; the three mini-sector code lists may be null as a whole. */
  datatype Lap = Lap(
    lapNumber: nat,
    lapDuration: Option<real>,
    sector1: Option<real>,
    sector2: Option<real>,
    sector3: Option<real>,
    i1Speed: Option<real>,
    i2Speed: Option<real>,
    stSpeed: Option<real>,
    isPitOutLap: bool,
    segments1: Option<seq<int>>,
    segments2: Option<seq<int>>,
    segments3: Option<seq<int>>)

  /** One tyre stint of one driver: the inclusive lap range run on one set. */
  datatype Stint = Stint(
    stintNumber: int,
    compound: string,
    lapStart: int,
    lapEnd: int,
    tyreAgeAtStart: int)

  /** The fields an analysis needs a lap to carry before it uses the lap. */
  datatype Requirement =
    | DurationOnly        // lap times, mini-sectors
    | DurationAndSectors  // fastest lap
    | AllSectors          // sector times
    | AllSpeeds           // speed traps

  /** A lap an analysis may use: not a pit-out lap, and every required field present. */
  predicate IsValid(l: Lap, req: Requirement) {
    && !l.isPitOutLap
    && match req
       case DurationOnly => l.lapDuration.Some?
       case DurationAndSectors =>
         l.lapDuration.Some? && l.sector1.Some? && l.sector2.Some? && l.sector3.Some?
       case AllSectors => l.sector1.Some? && l.sector2.Some? && l.sector3.Some?
       case AllSpeeds => l.i1Speed.Some? && l.i2Speed.Some? && l.stSpeed.Some?
  }

  /** `a` can be obtained from `b` by deleting elements: same elements, same relative order. */
  ghost predicate IsSubsequence<T>(a: seq<T>, b: seq<T>)
    decreases |b|
  {
    if |b| == 0 then |a| == 0
    else
      || IsSubsequence(a, b[..|b| - 1])
      || (|a| > 0 && a[|a| - 1] == b[|b| - 1] && IsSubsequence(a[..|a| - 1], b[..|b| - 1]))
  }

  /** Keeps, in their original order, exactly the elements satisfying `p`
      (JavaScript's `Array.prototype.filter`). */
  function Filter<T>(xs: seq<T>, p: T -> bool): (r: seq<T>)
    ensures |r| <= |xs|
    ensures forall i :: 0 <= i < |r| ==> p(r[i])
    ensures (forall i :: 0 <= i < |xs| ==> p(xs[i])) ==> r == xs
    ensures (forall i :: 0 <= i < |xs| ==> !p(xs[i])) ==> r == []
  {
    if |xs| == 0 then []
    else
      var n := |xs| - 1;
      var rest := Filter(xs[..n], p);
      assert xs == xs[..n] + [xs[n]];
      if p(xs[n]) then rest + [xs[n]] else rest
  }

  /** The filter keeps the surviving elements in their input order. */
  lemma {:induction false} FilterIsSubsequence<T>(xs: seq<T>, p: T -> bool)
    ensures IsSubsequence(Filter(xs, p), xs)
    decreases |xs|
  {
    if |xs| > 0 {
      var n := |xs| - 1;
      FilterIsSubsequence(xs[..n], p);
      var r := Filter(xs, p);
      if p(xs[n]) {
        assert r[..|r| - 1] == Filter(xs[..n], p);
      }
    }
  }

  /** An element survives the filter exactly when it is in the input and satisfies `p`. */
  lemma {:induction false} FilterMembers<T>(xs: seq<T>, p: T -> bool, x: T)
    ensures x in Filter(xs, p) <==> x in xs && p(x)
    decreases |xs|
  {
    if |xs| > 0 {
      var n := |xs| - 1;
      FilterMembers(xs[..n], p, x);
      assert xs == xs[..n] + [xs[n]];
    }
  }

  /** The laps an analysis with requirement `req` works on: the valid ones, in input order. */
  function Passes(req: Requirement): Lap -> bool {
    (l: Lap) => IsValid(l, req)
  }

  function ValidLaps(laps: seq<Lap>, req: Requirement): (r: seq<Lap>)
    ensures forall i :: 0 <= i < |r| ==> IsValid(r[i], req)
    ensures IsSubsequence(r, laps)
    ensures (forall i :: 0 <= i < |laps| ==> IsValid(laps[i], req)) ==> r == laps
    ensures (forall i :: 0 <= i < |laps| ==> !IsValid(laps[i], req)) ==> r == []
  {
    FilterIsSubsequence(laps, Passes(req));
    Filter(laps, Passes(req))
  }

  /** A lap is kept exactly when it is in the input and valid. */
  lemma ValidLapsMembers(laps: seq<Lap>, req: Requirement, l: Lap)
    ensures l in ValidLaps(laps, req) <==> l in laps && IsValid(l, req)
  {
    FilterMembers(laps, Passes(req), l);
  }

  /** An empty result means no lap was valid. */
  lemma NoValidLaps(laps: seq<Lap>, req: Requirement)
    requires |ValidLaps(laps, req)| == 0
    ensures forall i :: 0 <= i < |laps| ==> !IsValid(laps[i], req)
  {
    forall i | 0 <= i < |laps|
      ensures !IsValid(laps[i], req)
    {
      ValidLapsMembers(laps, req, laps[i]);
    }
  }

  /** Every list is a subsequence of itself. */
  lemma {:induction false} SubsequenceReflexive<T>(s: seq<T>)
    ensures IsSubsequence(s, s)
    decreases |s|
  {
    if |s| > 0 {
      SubsequenceReflexive(s[..|s| - 1]);
    }
  }

  /** Every element of a subsequence is an element of the list it was taken from. */
  lemma {:induction false} SubsequenceMembers<T>(a: seq<T>, b: seq<T>)
    requires IsSubsequence(a, b)
    ensures forall i :: 0 <= i < |a| ==> a[i] in b
    decreases |b|
  {
    if |b| > 0 {
      var n := |b| - 1;
      if IsSubsequence(a, b[..n]) {
        SubsequenceMembers(a, b[..n]);
        assert forall x :: x in b[..n] ==> x in b;
      } else {
        SubsequenceMembers(a[..|a| - 1], b[..n]);
        assert forall x :: x in b[..n] ==> x in b;
        assert forall i :: 0 <= i < |a| - 1 ==> a[i] == a[..|a| - 1][i];
      }
    }
  }

  /** Filtering distributes over concatenation. */
  lemma {:induction false} FilterConcat<T>(a: seq<T>, b: seq<T>, p: T -> bool)
    ensures Filter(a + b, p) == Filter(a, p) + Filter(b, p)
    decreases |b|
  {
    if |b| > 0 {
      var n := |b| - 1;
      FilterConcat(a, b[..n], p);
      assert (a + b)[..|a + b| - 1] == a + b[..n];
      assert (a + b)[|a + b| - 1] == b[n];
    } else {
      assert a + b == a;
    }
  }

  /** A one-element list keeps its element exactly when it passes. */
  lemma FilterSingleton<T>(y: T, p: T -> bool)
    ensures Filter([y], p) == if p(y) then [y] else []
  {
    assert [y][..0] == [];
  }
}

=== FILE: reducers.dfy ===
/** The reductions the analyses apply to one column of numbers (`Math.min`,
    `Math.max`, summing `reduce` and division by the count), with the empty
    column giving no value instead of JavaScript's Infinity or NaN. Also the
    truthiness-guarded difference the tables print as a delta. */
module Reducers {
  import opened Wrappers

  function Sum(xs: seq<real>): real {
    if |xs| == 0 then 0.0 else Sum(xs[..|xs| - 1]) + xs[|xs| - 1]
  }

  /** The smallest value, or None on an empty column. */
  function MinOf(xs: seq<real>): (r: Option<real>)
    ensures r.None? <==> |xs| == 0
    ensures r.Some? ==> r.value in xs
    ensures r.Some? ==> forall i :: 0 <= i < |xs| ==> r.value <= xs[i]
  {
    if |xs| == 0 then None
    else
      var n := |xs| - 1;
      match MinOf(xs[..n])
      case None => Some(xs[n])
      case Some(m) => if xs[n] < m then Some(xs[n]) else Some(m)
  }

  /** The largest value, or None on an empty column. */
  function MaxOf(xs: seq<real>): (r: Option<real>)
    ensures r.None? <==> |xs| == 0
    ensures r.Some? ==> r.value in xs
    ensures r.Some? ==> forall i :: 0 <= i < |xs| ==> xs[i] <= r.value
  {
    if |xs| == 0 then None
    else
      var n := |xs| - 1;
      match MaxOf(xs[..n])
      case None => Some(xs[n])
      case Some(m) => if xs[n] > m then Some(xs[n]) else Some(m)
  }

  /** The arithmetic mean, or None on an empty column. */
  function Mean(xs: seq<real>): (r: Option<real>)
    ensures r.None? <==> |xs| == 0
    ensures r.Some? ==> r.value * (|xs| as real) == Sum(xs)
  {
    if |xs| == 0 then None else Some(Sum(xs) / (|xs| as real))
  }

  /** Every value lies between the bounds, so the sum lies between count times each bound. */
  lemma {:induction false} SumBounds(xs: seq<real>, lo: real, hi: real)
    requires forall i :: 0 <= i < |xs| ==> lo <= xs[i] <= hi
    ensures (|xs| as real) * lo <= Sum(xs) <= (|xs| as real) * hi
  {
    if |xs| > 0 {
      SumBounds(xs[..|xs| - 1], lo, hi);
    }
  }

  /** Bounds that hold of every value of a non-empty column hold of its mean. */
  lemma MeanBounds(xs: seq<real>, lo: real, hi: real)
    requires |xs| > 0
    requires forall i :: 0 <= i < |xs| ==> lo <= xs[i] <= hi
    ensures lo <= Mean(xs).value <= hi
  {
    SumBounds(xs, lo, hi);
    QuotientBounds(Sum(xs), |xs| as real, lo, hi);
  }

  /** The mean of a non-empty column lies between its minimum and its maximum. */
  lemma MeanBetweenMinAndMax(xs: seq<real>)
    requires |xs| > 0
    ensures MinOf(xs).value <= Mean(xs).value <= MaxOf(xs).value
  {
    MeanBounds(xs, MinOf(xs).value, MaxOf(xs).value);
  }

  lemma QuotientBounds(a: real, n: real, lo: real, hi: real)
    requires n > 0.0
    requires n * lo <= a <= n * hi
    ensures lo <= a / n <= hi
  {
    var q := a / n;
    assert q * n == a;
    if q < lo {
      ProductPositive(lo - q, n);
    }
    if q > hi {
      ProductPositive(q - hi, n);
    }
  }

  lemma ProductPositive(x: real, y: real)
    requires x > 0.0 && y > 0.0
    ensures x * y > 0.0
  {
  }

  /** JavaScript truthiness of a number-or-null: present and not zero. */
  predicate Truthy(x: Option<real>) {
    x.Some? && x.value != 0.0
  }

  /** The delta a table prints for a row: driver 1's value minus driver 2's when both
      are truthy, N/A otherwise. */
  function Delta(a: Option<real>, b: Option<real>): (r: Option<real>)
    ensures r.Some? <==> Truthy(a) && Truthy(b)
    ensures r.Some? ==> r.value + b.value == a.value
  {
    if Truthy(a) && Truthy(b) then Some(a.value - b.value) else None
  }

  /** Swapping the two drivers negates every delta and keeps every N/A. */
  lemma DeltaAntisymmetric(a: Option<real>, b: Option<real>)
    ensures Delta(a, b).Some? == Delta(b, a).Some?
    ensures Delta(a, b).Some? ==> Delta(a, b).value == -Delta(b, a).value
  {
  }

  /** The difference of two reductions, which the sector and speed tables print
      without a truthiness guard; None when either reduction had no value. */
  function Difference(a: Option<real>, b: Option<real>): (r: Option<real>)
    ensures r.Some? <==> a.Some? && b.Some?
    ensures r.Some? ==> r.value + b.value == a.value
  {
    if a.Some? && b.Some? then Some(a.value - b.value) else None
  }
}

=== FILE: sectors.dfy ===
/** The sector-times comparison: per driver, the best (minimum) and average time of
    each sector over laps with all three sector times, the theoretical best lap, and
    the best-sector and theoretical-best deltas.

    Driver 2's "best sector 1" is the minimum of the SECTOR 2 times, as on the
    dashboard; this model keeps that behaviour (see `Driver2BestSector1IsSector2`). */
module Sectors {
  import opened Wrappers
  import opened Records
  import opened Reducers

  datatype Sector = S1 | S2 | S3

  function SectorTime(l: Lap, s: Sector): Option<real> {
    match s
    case S1 => l.sector1
    case S2 => l.sector2
    case S3 => l.sector3
  }

  /** The column of sector-`s` times of laps that all carry them. */
  function SectorTimes(laps: seq<Lap>, s: Sector): (r: seq<real>)
    requires forall i :: 0 <= i < |laps| ==> SectorTime(laps[i], s).Some?
    ensures |r| == |laps|
    ensures forall i :: 0 <= i < |laps| ==> r[i] == SectorTime(laps[i], s).value
  {
    seq(|laps|, i requires 0 <= i < |laps| => SectorTime(laps[i], s).value)
  }

  /** One driver's figures. `best1` is taken from the sector named by `firstBest`. */
  datatype SectorStats = SectorStats(
    best1: Option<real>, best2: Option<real>, best3: Option<real>,
    avg1: Option<real>, avg2: Option<real>, avg3: Option<real>,
    theoretical: Option<real>)

  function Stats(laps: seq<Lap>, firstBest: Sector): (r: SectorStats)
    ensures r.best1.None? <==> forall i :: 0 <= i < |laps| ==> !IsValid(laps[i], AllSectors)
    ensures r.best1.Some? == r.best2.Some? == r.best3.Some? == r.avg1.Some? == r.avg2.Some?
    ensures r.best1.Some? == r.avg3.Some? == r.theoretical.Some?
    ensures r.theoretical.Some? ==>
      r.theoretical.value == r.best1.value + r.best2.value + r.best3.value
    ensures r.avg1 == Mean(SectorTimes(ValidLaps(laps, AllSectors), S1))
    ensures r.avg2 == Mean(SectorTimes(ValidLaps(laps, AllSectors), S2))
    ensures r.avg3 == Mean(SectorTimes(ValidLaps(laps, AllSectors), S3))
  {
    var valid := ValidLaps(laps, AllSectors);
    var b1 := MinOf(SectorTimes(valid, firstBest));
    var b2 := MinOf(SectorTimes(valid, S2));
    var b3 := MinOf(SectorTimes(valid, S3));
    var theoretical := if |valid| == 0 then None else Some(b1.value + b2.value + b3.value);
    assert |valid| == 0 ==> forall i :: 0 <= i < |laps| ==> !IsValid(laps[i], AllSectors) by {
      if |valid| == 0 {
        NoValidLaps(laps, AllSectors);
      }
    }
    SectorStats(b1, b2, b3,
      Mean(SectorTimes(valid, S1)), Mean(SectorTimes(valid, S2)), Mean(SectorTimes(valid, S3)),
      theoretical)
  }

  datatype SectorsView = SectorsView(
    driver1: SectorStats,
    driver2: SectorStats,
    delta1: Option<real>,
    delta2: Option<real>,
    delta3: Option<real>,
    theoreticalDelta: Option<real>)

  function CompareSectors(laps1: seq<Lap>, laps2: seq<Lap>): (v: SectorsView)
    ensures v.driver1 == Stats(laps1, S1) && v.driver2 == Stats(laps2, S2)
    ensures v.delta1.Some? <==> v.driver1.best1.Some? && v.driver2.best1.Some?
    ensures v.delta1.Some? ==> v.delta1.value == v.driver1.best1.value - v.driver2.best1.value
    ensures v.delta2.Some? <==> v.driver1.best2.Some? && v.driver2.best2.Some?
    ensures v.delta2.Some? ==> v.delta2.value == v.driver1.best2.value - v.driver2.best2.value
    ensures v.delta3.Some? <==> v.driver1.best3.Some? && v.driver2.best3.Some?
    ensures v.delta3.Some? ==> v.delta3.value == v.driver1.best3.value - v.driver2.best3.value
    ensures v.theoreticalDelta.Some? <==> v.driver1.theoretical.Some? && v.driver2.theoretical.Some?
    ensures v.theoreticalDelta.Some? ==>
      v.theoreticalDelta.value == v.driver1.theoretical.value - v.driver2.theoretical.value
  {
    var d1 := Stats(laps1, S1);
    var d2 := Stats(laps2, S2);
    SectorsView(d1, d2,
      Difference(d1.best1, d2.best1), Difference(d1.best2, d2.best2), Difference(d1.best3, d2.best3),
      Difference(d1.theoretical, d2.theoretical))
  }

  /** `best` is the time of sector `s` on some valid lap, and no valid lap has a
      quicker one. */
  predicate IsBestTime(laps: seq<Lap>, s: Sector, best: Option<real>) {
    best.Some? ==>
      && (exists k :: 0 <= k < |laps| && IsValid(laps[k], AllSectors) && SectorTime(laps[k], s) == best)
      && (forall k :: 0 <= k < |laps| && IsValid(laps[k], AllSectors) ==> best.value <= SectorTime(laps[k], s).value)
  }

  /** The minimum of a sector's column of valid times is that sector's best time. */
  lemma BestIsMinimal(laps: seq<Lap>, s: Sector)
    ensures IsBestTime(laps, s, MinOf(SectorTimes(ValidLaps(laps, AllSectors), s)))
  {
    var valid := ValidLaps(laps, AllSectors);
    var times := SectorTimes(valid, s);
    var best := MinOf(times);
    if best.Some? {
      var j :| 0 <= j < |times| && times[j] == best.value;
      ValidLapsMembers(laps, AllSectors, valid[j]);
      var k :| 0 <= k < |laps| && laps[k] == valid[j];
      assert SectorTime(laps[k], s) == best;
      forall k | 0 <= k < |laps| && IsValid(laps[k], AllSectors)
        ensures best.value <= SectorTime(laps[k], s).value
      {
        ValidLapsMembers(laps, AllSectors, laps[k]);
        var i :| 0 <= i < |valid| && valid[i] == laps[k];
        assert times[i] == SectorTime(laps[k], s).value;
      }
    }
  }

  /** A driver's reported bests are the best times of the sectors they are taken from:
      sector 2 and sector 3 for `best2` and `best3`, and the sector named by `firstBest`
      for `best1`. */
  lemma StatsBestsAreBestTimes(laps: seq<Lap>, firstBest: Sector)
    ensures IsBestTime(laps, firstBest, Stats(laps, firstBest).best1)
    ensures IsBestTime(laps, S2, Stats(laps, firstBest).best2)
    ensures IsBestTime(laps, S3, Stats(laps, firstBest).best3)
  {
    BestIsMinimal(laps, firstBest);
    BestIsMinimal(laps, S2);
    BestIsMinimal(laps, S3);
  }

  /** Each average is the valid laps' total time in that sector divided by their
      number; with no valid lap there is no average. */
  lemma AveragesAreSumOverCount(laps: seq<Lap>, firstBest: Sector)
    ensures var valid := ValidLaps(laps, AllSectors);
      var st := Stats(laps, firstBest);
      && (st.avg1.Some? <==> |valid| > 0)
      && (st.avg1.Some? ==> st.avg1.value == Sum(SectorTimes(valid, S1)) / (|valid| as real))
      && (st.avg2.Some? ==> st.avg2.value == Sum(SectorTimes(valid, S2)) / (|valid| as real))
      && (st.avg3.Some? ==> st.avg3.value == Sum(SectorTimes(valid, S3)) / (|valid| as real))
  {
  }

  /** Driver 1's theoretical best is no slower than any valid lap's own three sectors. */
  lemma TheoreticalBestBeatsEveryLap(laps1: seq<Lap>, laps2: seq<Lap>, k: nat)
    requires k < |laps1| && IsValid(laps1[k], AllSectors)
    ensures var t := CompareSectors(laps1, laps2).driver1.theoretical;
      t.Some? && t.value <= laps1[k].sector1.value + laps1[k].sector2.value + laps1[k].sector3.value
  {
    BestIsMinimal(laps1, S1);
    BestIsMinimal(laps1, S2);
    BestIsMinimal(laps1, S3);
  }

  /** Driver 2's figure reported as best sector 1 is the best sector 2 time. */
  lemma Driver2BestSector1IsSector2(laps1: seq<Lap>, laps2: seq<Lap>)
    ensures var v := CompareSectors(laps1, laps2);
      v.driver2.best1 == v.driver2.best2 == MinOf(SectorTimes(ValidLaps(laps2, AllSectors), S2))
  {
  }

  /** Each average lies between the fastest and the slowest time of its sector;
      for driver 1 the reported best is that fastest time. */
  lemma AverageNotBelowBest(laps1: seq<Lap>, laps2: seq<Lap>)
    ensures var d := CompareSectors(laps1, laps2).driver1;
      d.best1.Some? ==>
        d.best1.value <= d.avg1.value && d.best2.value <= d.avg2.value && d.best3.value <= d.avg3.value
  {
    var valid := ValidLaps(laps1, AllSectors);
    if |valid| > 0 {
      MeanBetweenMinAndMax(SectorTimes(valid, S1));
      MeanBetweenMinAndMax(SectorTimes(valid, S2));
      MeanBetweenMinAndMax(SectorTimes(valid, S3));
    }
  }

  /** For a single valid lap, the bests are that lap's own sector times. */
  lemma SingleLapBests(l: Lap, firstBest: Sector)
    requires IsValid(l, AllSectors)
    ensures var d := Stats([l], firstBest);
      && d.best1 == SectorTime(l, firstBest) && d.best2 == l.sector2 && d.best3 == l.sector3
  {
    assert ValidLaps([l], AllSectors) == [l];
    var t1, t2, t3 := SectorTimes([l], firstBest), SectorTimes([l], S2), SectorTimes([l], S3);
    assert MinOf(t1) == SectorTime(l, firstBest) by { SingletonMin(t1); }
    assert MinOf(t2) == l.sector2 by { SingletonMin(t2); }
    assert MinOf(t3) == l.sector3 by { SingletonMin(t3); }
  }

  lemma SingletonMin(xs: seq<real>)
    requires |xs| == 1
    ensures MinOf(xs) == Some(xs[0])
  {
    assert xs[..0] == [];
  }

  function SectorLap(s1: real, s2: real, s3: real): Lap {
    Lap(1, Some(s1 + s2 + s3), Some(s1), Some(s2), Some(s3), None, None, None, false, None, None, None)
  }

  /** With best sectors (30.0, 35.0, 40.0) for driver 1 and (30.5, 34.5, 40.2) for
      driver 2, the dashboard reports theoretical bests of 105.0 and 109.2 (not 105.2,
      since driver 2's sector 1 is read from sector 2), a delta of -4.2. */
  lemma TheoreticalBestExample()
    ensures var v := CompareSectors([SectorLap(30.0, 35.0, 40.0)], [SectorLap(30.5, 34.5, 40.2)]);
      && v.driver1.theoretical == Some(105.0)
      && v.driver2.theoretical == Some(109.2)
      && v.theoreticalDelta == Some(-4.2)
      && v.delta1 == Some(-4.5)
  {
    var l1, l2 := SectorLap(30.0, 35.0, 40.0), SectorLap(30.5, 34.5, 40.2);
    var d1, d2 := Stats([l1], S1), Stats([l2], S2);
    assert d1.best1 == Some(30.0) && d1.theoretical == Some(105.0) by {
      SingleLapBests(l1, S1);
    }
    assert d2.best1 == Some(34.5) && d2.theoretical == Some(109.2) by {
      SingleLapBests(l2, S2);
    }
  }
}

=== FILE: speed_traps.dfy ===
/** The speed-trap comparison: per driver, the maximum and average speed at the two
    intermediate points and the speed trap, over laps carrying all three speeds, and
    the delta of the maxima. */
module SpeedTraps {
  import opened Wrappers
  import opened Records
  import opened Reducers

  datatype Point = I1 | I2 | ST

  function Speed(l: Lap, p: Point): Option<real> {
    match p
    case I1 => l.i1Speed
    case I2 => l.i2Speed
    case ST => l.stSpeed
  }

  function Speeds(laps: seq<Lap>, p: Point): (r: seq<real>)
    requires forall i :: 0 <= i < |laps| ==> Speed(laps[i], p).Some?
    ensures |r| == |laps|
    ensures forall i :: 0 <= i < |laps| ==> r[i] == Speed(laps[i], p).value
  {
    seq(|laps|, i requires 0 <= i < |laps| => Speed(laps[i], p).value)
  }

  /** One measurement point of one driver. */
  datatype PointStats = PointStats(max: Option<real>, avg: Option<real>)

  function PointOf(laps: seq<Lap>, p: Point): (r: PointStats)
    ensures r.max.Some? <==> exists i :: 0 <= i < |laps| && IsValid(laps[i], AllSpeeds)
    ensures r.max.Some? == r.avg.Some?
    ensures r.max.Some? ==> r.avg.value <= r.max.value
    ensures r.max == MaxOf(Speeds(ValidLaps(laps, AllSpeeds), p))
    ensures r.avg == Mean(Speeds(ValidLaps(laps, AllSpeeds), p))
  {
    var valid := ValidLaps(laps, AllSpeeds);
    var xs := Speeds(valid, p);
    if |xs| > 0 then
      MeanBetweenMinAndMax(xs);
      ValidLapsMembers(laps, AllSpeeds, valid[0]);
      PointStats(MaxOf(xs), Mean(xs))
    else
      NoValidLaps(laps, AllSpeeds);
      PointStats(None, None)
  }

  datatype SpeedTrapsView = SpeedTrapsView(
    driver1: seq<PointStats>,
    driver2: seq<PointStats>,
    deltas: seq<Option<real>>)

  function Points(): seq<Point> {
    [I1, I2, ST]
  }

  /** The rows are the two intermediate points and the speed trap, in that order. */
  function CompareSpeedTraps(laps1: seq<Lap>, laps2: seq<Lap>): (v: SpeedTrapsView)
    ensures |v.driver1| == 3 && |v.driver2| == 3 && |v.deltas| == 3
    ensures forall k :: 0 <= k < 3 ==>
      v.driver1[k] == PointOf(laps1, Points()[k]) && v.driver2[k] == PointOf(laps2, Points()[k])
    ensures forall k :: 0 <= k < 3 ==>
      (v.deltas[k].Some? <==> v.driver1[k].max.Some? && v.driver2[k].max.Some?)
    ensures forall k :: 0 <= k < 3 && v.deltas[k].Some? ==>
      v.deltas[k].value + v.driver2[k].max.value == v.driver1[k].max.value
  {
    var d1 := seq(3, k requires 0 <= k < 3 => PointOf(laps1, Points()[k]));
    var d2 := seq(3, k requires 0 <= k < 3 => PointOf(laps2, Points()[k]));
    SpeedTrapsView(d1, d2, seq(3, k requires 0 <= k < 3 => Difference(d1[k].max, d2[k].max)))
  }

  /** The maximum at a point is the speed some valid lap recorded there, and no valid
      lap recorded a higher one. */
  lemma MaxIsAttainedAndMaximal(laps: seq<Lap>, p: Point)
    ensures var m := PointOf(laps, p).max;
      m.Some? ==>
        && (exists k :: 0 <= k < |laps| && IsValid(laps[k], AllSpeeds) && Speed(laps[k], p) == m)
        && (forall k :: 0 <= k < |laps| && IsValid(laps[k], AllSpeeds) ==> Speed(laps[k], p).value <= m.value)
  {
    var valid := ValidLaps(laps, AllSpeeds);
    var xs := Speeds(valid, p);
    var m := PointOf(laps, p).max;
    if m.Some? {
      var j :| 0 <= j < |xs| && xs[j] == m.value;
      ValidLapsMembers(laps, AllSpeeds, valid[j]);
      var k :| 0 <= k < |laps| && laps[k] == valid[j];
      assert Speed(laps[k], p) == m;
      forall k | 0 <= k < |laps| && IsValid(laps[k], AllSpeeds)
        ensures Speed(laps[k], p).value <= m.value
      {
        ValidLapsMembers(laps, AllSpeeds, laps[k]);
        var i :| 0 <= i < |valid| && valid[i] == laps[k];
        assert xs[i] == Speed(laps[k], p).value;
      }
    }
  }

  /** The average at a point is the valid laps' total speed there divided by their
      number; with no valid lap there is no average. */
  lemma AverageIsSumOverCount(laps: seq<Lap>, p: Point)
    ensures var valid := ValidLaps(laps, AllSpeeds);
      var avg := PointOf(laps, p).avg;
      && (avg.Some? <==> |valid| > 0)
      && (avg.Some? ==> avg.value == Sum(Speeds(valid, p)) / (|valid| as real))
  {
  }
}

=== FILE: stints.dfy ===
/** Matching a lap number to a tyre stint by inclusive lap range, first match in
    list order (JavaScript's `Array.prototype.find`). */
module Stints {
  import opened Wrappers
  import opened Records

  predicate Covers(s: Stint, lap: int) {
    s.lapStart <= lap <= s.lapEnd
  }

  /** Index of the first stint whose range contains `lap`, or None when no stint does. */
  function FindStint(stints: seq<Stint>, lap: int): (r: Option<nat>)
    ensures r.None? <==> forall j :: 0 <= j < |stints| ==> !Covers(stints[j], lap)
    ensures r.Some? ==> r.value < |stints| && Covers(stints[r.value], lap)
    ensures r.Some? ==> forall j :: 0 <= j < r.value ==> !Covers(stints[j], lap)
  {
    if |stints| == 0 then None
    else if Covers(stints[0], lap) then Some(0)
    else
      match FindStint(stints[1..], lap)
      case None => None
      case Some(i) => Some(i + 1)
  }

  /** When no two stints overlap, in whatever order they are listed, the first match
      is the only match. */
  lemma FindStintUnique(stints: seq<Stint>, lap: int, k: nat)
    requires forall i, j :: 0 <= i < |stints| && 0 <= j < |stints| && i != j ==>
      stints[i].lapEnd < stints[j].lapStart || stints[j].lapEnd < stints[i].lapStart
    requires k < |stints| && Covers(stints[k], lap)
    ensures FindStint(stints, lap) == Some(k)
  {
  }
}

=== FILE: tyre_strategy.dfy ===
/** The tyre strategy comparison: a lap-by-lap timeline of which stint (and so which
    compound) each driver ran, and a table pairing the drivers' stints by position. */
module TyreStrategy {
  import opened Wrappers
  import opened Records
  import opened Stints

  /** The timeline length: the largest stint end lap of either driver. `Math.max` of no
      values is minus infinity and `Array.from` clamps a non-positive length to 0, so the
      length is never negative. */
  function MaxLapEnd(stints: seq<Stint>): (r: nat)
    ensures forall j :: 0 <= j < |stints| ==> stints[j].lapEnd <= r
    ensures r == 0 || exists j :: 0 <= j < |stints| && stints[j].lapEnd == r
  {
    if |stints| == 0 then 0
    else
      var rest := MaxLapEnd(stints[..|stints| - 1]);
      var last := stints[|stints| - 1].lapEnd;
      if last > rest then last else rest
  }

  function TimelineLength(stints1: seq<Stint>, stints2: seq<Stint>): (r: nat)
    ensures forall j :: 0 <= j < |stints1| ==> stints1[j].lapEnd <= r
    ensures forall j :: 0 <= j < |stints2| ==> stints2[j].lapEnd <= r
    ensures r == 0
         || (exists j :: 0 <= j < |stints1| && stints1[j].lapEnd == r)
         || (exists j :: 0 <= j < |stints2| && stints2[j].lapEnd == r)
  {
    var a, b := MaxLapEnd(stints1), MaxLapEnd(stints2);
    if a >= b then a else b
  }

  /** One bar of the timeline: the bar value (1 above the axis for driver 1, -1 below for
      driver 2, absent in a gap) and the compound and starting tyre age shown for it. */
  datatype Cell = Cell(mark: Option<int>, compound: Option<string>, tyreAge: Option<int>)

  function CellFor(stints: seq<Stint>, lap: nat, mark: int): (c: Cell)
    ensures c.mark.Some? <==> FindStint(stints, lap).Some?
  {
    match FindStint(stints, lap)
    case None => Cell(None, None, None)
    case Some(k) => Cell(Some(mark), Some(stints[k].compound), Some(stints[k].tyreAgeAtStart))
  }

  /** Slot i describes lap i + 1: marked iff some stint's range holds that lap, and then
      carrying the compound and tyre age of the first such stint in list order. */
  function Timeline(stints: seq<Stint>, length: nat, mark: int): (r: seq<Cell>)
    ensures |r| == length
    ensures forall i :: 0 <= i < length ==>
      (r[i].mark.Some? <==> exists j :: 0 <= j < |stints| && Covers(stints[j], i + 1))
    ensures forall i :: 0 <= i < length && r[i].mark.Some? ==>
      r[i].mark == Some(mark) && r[i].compound.Some? && r[i].tyreAge.Some?
  {
    seq(length, i requires 0 <= i < length => CellFor(stints, i + 1, mark))
  }

  predicate FirstCover(stints: seq<Stint>, k: nat, lap: int)
    requires k < |stints|
  {
    Covers(stints[k], lap) && forall j :: 0 <= j < k ==> !Covers(stints[j], lap)
  }

  /** A marked lap shows the first stint covering it: that stint covers the lap and
      none before it in the list does. */
  lemma TimelineShowsFirstCoveringStint(stints: seq<Stint>, length: nat, mark: int, i: nat)
    requires i < length
    requires Timeline(stints, length, mark)[i].mark.Some?
    ensures exists k :: (0 <= k < |stints| && FirstCover(stints, k, i + 1)
      && Timeline(stints, length, mark)[i].compound == Some(stints[k].compound)
      && Timeline(stints, length, mark)[i].tyreAge == Some(stints[k].tyreAgeAtStart))
  {
    var k := FindStint(stints, i + 1).value;
    assert Covers(stints[k], i + 1);
  }

  /** The table's "Difference" column. */
  datatype CompoundMatch = SameCompound | DifferentCompound | NotAvailable

  datatype StintRow = StintRow(stint: Stint, other: Option<Stint>, difference: CompoundMatch)

  /** One row per driver-1 stint, paired with driver 2's stint at the same position. */
  function StintTable(stints1: seq<Stint>, stints2: seq<Stint>): (r: seq<StintRow>)
    ensures |r| == |stints1|
    ensures forall i :: 0 <= i < |r| ==>
      && r[i].stint == stints1[i]
      && r[i].other == (if i < |stints2| then Some(stints2[i]) else None)
    ensures forall i :: 0 <= i < |r| ==>
      && (r[i].difference == NotAvailable <==> i >= |stints2|)
      && (r[i].difference == SameCompound <==> i < |stints2| && stints1[i].compound == stints2[i].compound)
  {
    seq(|stints1|, i requires 0 <= i < |stints1| =>
      if i < |stints2| then
        StintRow(stints1[i], Some(stints2[i]),
                 if stints1[i].compound == stints2[i].compound then SameCompound else DifferentCompound)
      else StintRow(stints1[i], None, NotAvailable))
  }

  datatype TyreStrategyView = TyreStrategyView(
    length: nat,
    timeline1: seq<Cell>,
    timeline2: seq<Cell>,
    table: seq<StintRow>)

  function CompareTyreStrategy(stints1: seq<Stint>, stints2: seq<Stint>): (v: TyreStrategyView)
    ensures v.length == TimelineLength(stints1, stints2)
    ensures v.timeline1 == Timeline(stints1, v.length, 1)
    ensures v.timeline2 == Timeline(stints2, v.length, -1)
    ensures v.table == StintTable(stints1, stints2)
  {
    var n := TimelineLength(stints1, stints2);
    TyreStrategyView(n, Timeline(stints1, n, 1), Timeline(stints2, n, -1), StintTable(stints1, stints2))
  }

  /** Every lap of every stint from lap 1 on lies on the timeline and is marked for its
      driver: 1 for driver 1, -1 for driver 2. */
  lemma EveryStintLapIsShown(stints1: seq<Stint>, stints2: seq<Stint>, d: nat, j: nat, lap: int)
    requires d == 1 || d == 2
    requires d == 1 ==> j < |stints1| && Covers(stints1[j], lap)
    requires d == 2 ==> j < |stints2| && Covers(stints2[j], lap)
    requires 1 <= lap
    ensures var v := CompareTyreStrategy(stints1, stints2);
      && lap <= v.length
      && (d == 1 ==> v.timeline1[lap - 1].mark == Some(1))
      && (d == 2 ==> v.timeline2[lap - 1].mark == Some(-1))
  {
  }

  /** A lap no stint of the driver covers is a gap on that driver's timeline, for
      either driver's mark. */
  lemma UncoveredLapIsGap(stints: seq<Stint>, length: nat, mark: int, lap: nat)
    requires 1 <= lap <= length
    requires forall j :: 0 <= j < |stints| ==> !Covers(stints[j], lap)
    ensures Timeline(stints, length, mark)[lap - 1] == Cell(None, None, None)
  {
    assert Timeline(stints, length, mark)[lap - 1] == CellFor(stints, lap, mark);
  }

  /** Swapping two equally long stint lists leaves the difference column unchanged. */
  lemma StintTableSymmetric(stints1: seq<Stint>, stints2: seq<Stint>, i: nat)
    requires |stints1| == |stints2| && i < |stints1|
    ensures StintTable(stints1, stints2)[i].difference == StintTable(stints2, stints1)[i].difference
  {
  }
}

=== FILE: wrappers.dfy ===
/** The optional-value type used for every field the telemetry API may leave null
    and for every reduction that has no value on an empty input. */
module Wrappers {

  datatype Option<+T> = None | Some(value: T) {

    /** The wrapped value, or `default` when there is none. */
    function GetOr(default: T): T {
      match this
      case Some(v) => v
      case None => default
    }
  }
}
